=== FILE: README.md ===
# OCR folder batch: a verified model of its pure core

The program runs OCR over a folder of images and writes one aggregate text
report. It comes in two variants:

- **In-process** (`on_folder.cpp`): calls the OCR engine directly. It can
  discard an image's text when the engine's mean confidence is below a
  threshold.
- **External** (`with_confidence.cpp`): runs the OCR tool as a separate
  process. It also writes a per-character confidence report for every image.

This project models the sequential logic inside that glue, in Dafny:

- **Confidence table parser** (`TsvConfidence`): the tool's tab-separated
  table is read line by line, and the header line is dropped. A row with at
  least 12 fields becomes per-character `CharacterConfidence` entries:
  - A word row (level 4) with text and a non-negative confidence is divided
    into its characters. Integer division splits its bounding box.
  - A character row (level 5) with text is copied as it is.
  - Every other row gives nothing.
- **Fallback synthesiser** (`ChoicesConfidence`): when the table gives
  nothing, entries are made up from the trimmed text of a second run.
  - Each white-space character bumps a word counter.
  - Every other character at index `i` gets a box at `x = 20*i`.
  - It also gets a confidence drawn from a band chosen by its character
    class, which is then clamped to 0..100.
- **Selection** (`ConfidenceExtractor`): the table result is used when it is
  non-empty; otherwise the synthesiser's result is used.
- **Confidence report** (`ConfidenceReport`):
  - one line per entry, with a lone space, tab or line feed spelled out;
  - statistics: count, exact sum, running minimum started at 100, running
    maximum started at 0, and the number of confidences below 70. These are
    written only for a non-empty list.
- **Per-image recognition of the in-process variant** (`EngineOcr`):
  - no engine, or an image that does not decode, gives empty text without
    querying the engine;
  - with the gate on, text is asked for only when the mean confidence is at
    least the threshold.
- **`processFolder`, both variants** (`OcrReport`, `EngineFolder`,
  `ExternalFolder`):
  - The run aborts, in order, when:
    - the engine fails to initialise (in-process variant only);
    - the folder is missing;
    - no images are listed;
    - the report cannot be created.
  - The image list is built extension filter by extension filter.
  - Each image gets one section, in list order. It holds the trimmed text
    when the raw result is non-empty, and a failure marker otherwise.
  - The success and failure counts are tallied.
  - The run returns true exactly when some image succeeded.

Support modules:

- `QtString`: text as UTF-16 code units, the `QString` operations the core
  uses (`trimmed` and `split`), and the line reading of
  `QTextStream::readLine`/`atEnd`.
- `QtNumber`: `QString::toInt`.
- `CppInt`: C++ truncating `/` and `%`.
- `Wrappers`: `Option`.

The model is functional: immutable datatypes and pure functions. The OCR
engine, the image decoder, the external tool's outputs, the directory
listing and `qrand()` are all explicit inputs:

- `qrand()` is a function from the call index to its value.
- The Unicode character classes are uninterpreted functions in a
  `CharClasses` value.
- A report is a datatype (header, sections, summary), not formatted text.

### Behaviour worth noting

- Only word rows (level 4) are checked for a non-negative confidence. A
  character row (level 5) with a negative confidence produces an entry with
  that confidence.
- The table path never clamps confidences. Only the synthesiser clamps, and
  for its bands the clamp never changes a value: every raw value lies in
  51..97 whatever `qrand()` returns (`ChoicesConfidence.RawConfidence`).
- The widths of a divided word add up to at most the word's width, short of
  it by less than the number of characters.
- A folder with no images gets no report: the run returns false before the
  report is opened.

### Observations about the table format

- In Tesseract's table format, level 4 is a text line and level 5 is a
  word. The code treats level 5 rows as single characters, so a "character"
  entry may hold a whole word.
- Where the tool writes the confidence as a decimal such as `96.5`,
  `QString::toInt` reads it as 0 (`QtNumber.FractionReadsAsZero`), so the
  table confidences of such output are 0.

## Model

| member | source | states |
|---|---|---|
| `QtString.Split` | with_confidence.cpp:164 | splitting a line on the tab gives at least one field and no field contains a tab |
| `QtString.JoinSplit` | with_confidence.cpp:164 | no text is lost: the fields joined with tabs give the line back |
| `QtString.SplitJoin` | with_confidence.cpp:164 | tab-free fields joined with tabs split back into exactly those fields |
| `QtString.ReadLines` | with_confidence.cpp:158-163 | the lines read from the table never contain a line feed |
| `QtString.ReadLinesFirst` | with_confidence.cpp:158-163 | reading a line consumes it and its line feed, and the rest is read independently |
| `QtString.Trim` | on_folder.cpp:277 | the trimmed text is a contiguous piece of the input that neither starts nor ends with white space, and everything cut off is white space |
| `QtString.TrimIdempotent` | on_folder.cpp:277 | trimming trimmed text changes nothing |
| `QtString.TrimEmptyIffAllSpace` | on_folder.cpp:273-277 | the trimmed text is empty exactly when the raw text is all white space |
| `QtNumber.ToInt` | with_confidence.cpp:168-169 | every field reads as a 32-bit integer |
| `QtNumber.ToIntOfIntText` | with_confidence.cpp:168-169 | every 32-bit integer written in decimal reads back as itself |
| `QtNumber.FractionReadsAsZero` | with_confidence.cpp:169 | a decimal confidence such as 96.5 reads as 0 |
| `QtNumber.BlankReadsAsZero` | with_confidence.cpp:168-169 | an empty or blank field reads as 0 |
| `CppInt.Quot` | with_confidence.cpp:181-183 | C++ division truncates toward zero: the product lies between 0 and the dividend and the remainder is smaller than the divisor |
| `CppInt.Rem` | with_confidence.cpp:297-306 | C++ `%` takes the sign of the dividend, its magnitude is below the divisor's, and quotient times divisor plus remainder is the dividend |
| `CppInt.QuotOfNonNegative` | with_confidence.cpp:181-183 | for a non-negative dividend and positive divisor, C++ division and remainder agree with floor division |
| `TsvConfidence.DecodeRow` | with_confidence.cpp:164-170 | a row is used exactly when it has at least 12 fields; its text is field 11 verbatim and every numeric field is a 32-bit integer |
| `TsvConfidence.DecodeEncodeRow` | with_confidence.cpp:164-170 | a row written as 12 tab-separated fields decodes back to the same row |
| `TsvConfidence.WordEntriesFrom` | with_confidence.cpp:174-189 | a word row's entries from character `i` on come one per character, in character order |
| `TsvConfidence.RowEntries` | with_confidence.cpp:167-206 | a level-4 row with text and confidence >= 0 gives exactly N entries; entry i has character text[i], the row's confidence, the copied y, height and page/block/par/line/word numbers, x = left + (i*W)/N and width W/N (truncating); a level-4 row with negative confidence gives nothing; a level-5 row with text gives one entry that copies every field, including a negative confidence, and takes the whole text; other levels and empty text give nothing |
| `TsvConfidence.WordBoxes` | with_confidence.cpp:181-183 | for W >= 0 the first box starts at left, x never decreases, consecutive boxes do not overlap, the last box ends within left+W, and the widths sum to at most W with a shortfall below N |
| `TsvConfidence.WordStartsGrow` | with_confidence.cpp:181-182 | for W >= 0 the x of a later character of a word is never smaller than that of an earlier one |
| `TsvConfidence.WordBoxesApart` | with_confidence.cpp:181-183 | for W >= 0 each character's box ends at or before the next character's box starts |
| `TsvConfidence.WordLastBox` | with_confidence.cpp:181-183 | for W >= 0 the last character's box ends within left + W |
| `TsvConfidence.WordWidths` | with_confidence.cpp:183 | for W >= 0 the character widths add up to at most W, and fall short of it by less than N |
| `TsvConfidence.FieldsReadBack` | with_confidence.cpp:168-170 | each numeric cell of a written row reads back as the row's value |
| `TsvConfidence.ShortLineIgnored` | with_confidence.cpp:164-167 | a line with fewer than 12 fields gives no entries |
| `TsvConfidence.ParseTsv` | with_confidence.cpp:157-208 | a table of at most one line gives nothing; otherwise the first line read is dropped and the result is the entries of each later line concatenated in line order, so every entry comes from a line after the first (see also `ParseTsvSkipsHeader`, `ParseRowsAppend` and `ParseWrittenTable`) |
| `TsvConfidence.ParseRowsFlatten` | with_confidence.cpp:162-207 | parsing the lines after the header is concatenating each line's entries, in line order |
| `TsvConfidence.FlattenOrigin` | with_confidence.cpp:162-207 | every entry of the concatenation is an entry of one of the lines |
| `TsvConfidence.ParseTsvSkipsHeader` | with_confidence.cpp:157-164 | the first line is dropped and only the lines after it are parsed |
| `TsvConfidence.HeaderOnlyIsEmpty` | with_confidence.cpp:157-162 | a table of a single line gives no entries |
| `TsvConfidence.ParseRowsAppend` | with_confidence.cpp:162-206 | the entries follow line order: the entries of two runs of lines are the concatenation of each run's entries |
| `TsvConfidence.ParseWrittenTable` | with_confidence.cpp:157-206 | a header line followed by written rows parses to the rows' entries, in row order |
| `TsvConfidence.ParseWrittenRows` | with_confidence.cpp:162-206 | written rows, read line by line, parse to the rows' entries in row order |
| `ChoicesConfidence.ClassOf` | with_confidence.cpp:293-307 | the class is asked in order: a letter is a common letter exactly when its lower-case form is in the common-letter list and another letter otherwise; a non-letter digit is a digit; a non-letter, non-digit punctuation mark is punctuation; the remaining class is taken exactly when none of the three holds |
| `ChoicesConfidence.RawConfidence` | with_confidence.cpp:293-307 | for any random value the confidence lies in 51..97; for a non-negative one it lies in its class band (common letter 85-94, other letter 80-89, digit 90-97, punctuation 75-89, other 70-89) |
| `ChoicesConfidence.Clamp` | with_confidence.cpp:310 | the clamped value lies in 0..100 and values already there are unchanged |
| `ChoicesConfidence.SynthEntry` | with_confidence.cpp:280-310 | a synthesised confidence is the band value unchanged by the clamp, and lies in 0..100 |
| `ChoicesConfidence.SynthFrom` | with_confidence.cpp:271-313 | from position i on: one entry per non-white-space character; fabricated fields (y 0, width 18, height 24, page/block/par/line 1, a single character); x strictly increasing; word numbers non-decreasing; bands when the random values are non-negative |
| `ChoicesConfidence.Synthesise` | with_confidence.cpp:261-314 | entries exist exactly when the trimmed text is non-empty; their number is the count of non-white-space characters; the first has x 0 and word number 1; x is strictly increasing and word numbers non-decreasing |
| `ChoicesConfidence.SynthAt` | with_confidence.cpp:271-290 | the entry made for a non-white-space position p has character text[p], x = 20*p, the word number raised once per white-space character before p, and the random value of its own index |
| `ChoicesConfidence.SynthesiseAt` | with_confidence.cpp:271-290 | in the trimmed text, the entry for non-white-space position p has x = 20*p and word number 1 plus the white-space count before p |
| `ConfidenceExtractor.TableResult` | with_confidence.cpp:135-161 | a table run that failed to start, timed out or whose file could not be opened gives no entries, and so does a table of at most a header line; every entry comes from a line after the header |
| `ConfidenceExtractor.ExtractConfidence` | with_confidence.cpp:99-111 | the table run always happens; the text run happens exactly when the table gave no entries; the result is the table's entries or else the synthesiser's; it is empty exactly when both are |
| `ConfidenceExtractor.TablePreferred` | with_confidence.cpp:103-108 | a non-empty table result is returned as it is and the synthesiser is not consulted |
| `ConfidenceReport.DisplayCharacter` | with_confidence.cpp:418-421 | a lone space, tab or line feed is shown as [SPACE], [TAB] or [NEWLINE]; anything else is shown as it is; the shown text is never a lone blank |
| `ConfidenceReport.DisplayDistinguishesCharacters` | with_confidence.cpp:418-421 | different single characters are shown differently |
| `ConfidenceReport.Accumulate` | with_confidence.cpp:436-441 | the loop counts every entry, sums the confidences exactly, counts those below 70, and keeps a minimum and maximum that bound every confidence and are either the start value or some confidence |
| `ConfidenceReport.Statistics` | with_confidence.cpp:430-453 | statistics exist exactly for a non-empty list; the count is the list length, the total the exact sum, the low count the number below 70 (at most the count), and min <= every confidence <= max with min <= 100 and max >= 0 |
| `ConfidenceReport.StatisticsOfPercentages` | with_confidence.cpp:430-441 | when all confidences lie in 0..100, the minimum and maximum are both attained by some entry |
| `ConfidenceReport.ReadShownDisplay` | with_confidence.cpp:418-421 | a shown character reads back as the character itself, unless that character is literally one of the spelled-out names |
| `ConfidenceReport.ConfidenceFileOf` | with_confidence.cpp:416-453 | one report line per entry, in order; each line reads back to its entry's character (unless it is literally a spelled-out name) and carries its confidence, box and word number; different single characters are shown differently; the statistics block is the entries' statistics (so it carries the exact low-confidence count and the running minimum and maximum), is present exactly when there are lines, counts them, sums their confidences, and its minimum and maximum bound every line's confidence |
| `EngineOcr.ProcessImage` | on_folder.cpp:74-112 | no engine or an undecodable image gives empty text and no engine call; otherwise the image is set and the text asked for, and a null text gives empty text |
| `EngineOcr.ProcessImageWithConfidence` | on_folder.cpp:114-165 | no engine or an undecodable image gives empty text and no engine call; otherwise the mean confidence is read first; the text is asked for exactly when it is at least the threshold; non-empty text implies the threshold was met and is the engine's text |
| `EngineOcr.GateOnlyFilters` | on_folder.cpp:139-165 | the gated result is the ungated result, except that a mean confidence strictly below the threshold gives empty text |
| `EngineOcr.GateIsInclusive` | on_folder.cpp:145-150 | for an image with text, the text is kept exactly when the mean confidence is at least the threshold, so equality passes |
| `OcrReport.ListImages` | on_folder.cpp:207-214 | the image list is the png matches, then jpg, jpeg, tiff, tif, bmp, gif and webp, concatenated in that order |
| `OcrReport.SectionFor` | on_folder.cpp:273-291 | an image's section carries its file name; it is a success exactly when the raw result is non-empty, and then holds the trimmed result, otherwise the run's failure marker |
| `OcrReport.Sections` | on_folder.cpp:260-297 | one section per listed image, in list order; a section is a success exactly when the raw result is non-empty; it then holds the trimmed result, and otherwise the run's marker |
| `OcrReport.PositionsSplit` | on_folder.cpp:273-296 | the succeeded (or failed) positions are the first section's, if it qualifies, and those among the rest moved one place on |
| `OcrReport.PositionsStep` | on_folder.cpp:273-296 | the number of succeeded (or failed) positions is the first section's contribution plus the number among the rest |
| `OcrReport.Tally` | on_folder.cpp:246-309 | the success counter is the number of sections holding text and the failure counter the number holding a marker; they add up to the number of sections; there is a success exactly when some section succeeded and a failure exactly when some section failed |
| `OcrReport.WriteReport` | on_folder.cpp:249-309 | the report has the given header, the sections above, and a summary whose total is the image count, whose success counter is the number of images that yielded text and whose failure counter is the number that did not |
| `OcrReport.BlankResultSucceeds` | on_folder.cpp:273-282 | a raw result of white space only counts as a success and writes an empty body |
| `OcrReport.AllFailed` | on_folder.cpp:283-309 | when no image yields text, the summary is zero successes and all failures |
| `EngineFolder.Recognise` | on_folder.cpp:266-271 | an image that decodes, passes the gate (when it is on) and gets text from the engine yields that text; a non-empty text is the engine's, of a decoded image, and with the gate on one whose mean confidence met the threshold |
| `EngineFolder.ProcessFolder` | on_folder.cpp:185-326 | aborts with false in order: engine initialisation, missing folder, no images, report not created; otherwise the header carries the minimum-confidence line exactly when the gate is on, there is one section per image in order, the failure marker is the low-confidence one exactly when the gate is on, the success counter is the number of images that yielded text and the failure counter the number that did not, and the result is true exactly when some image yielded text |
| `EngineFolder.LowConfidenceFails` | on_folder.cpp:145-150 | with the gate on, an image below the threshold fails |
| `EngineFolder.TwoImagesOneBelowThreshold` | on_folder.cpp:185-325 | with the gate at 60, a folder listing two images, the first decoding with text at mean confidence 80 and the second at 40, gives the report whose header has a total of 2 and the minimum-confidence line 60, whose sections are the first image's trimmed text and the second's low-confidence marker, and whose summary is 1, 1, 2; the run returns true |
| `EngineFolder.OneSucceedsOneFails` | on_folder.cpp:273-309 | two images of which only the first yields text give a success section, a failure section and the summary 1, 1, 2 |
| `ExternalFolder.Recognise` | with_confidence.cpp:367-378 | a plain text run that succeeds yields its text; a non-empty text is that run's output |
| `ExternalFolder.ConfidencePath` | with_confidence.cpp:511 | the confidence report's path is the report path, an underscore, the image name, then `_confidence.txt` |
| `ExternalFolder.ConfidencePathsDistinct` | with_confidence.cpp:511 | different images of one run get different confidence report paths |
| `ExternalFolder.SaveAll` | with_confidence.cpp:509-512 | one confidence report per listed image, in order, holding the extractor's entries for that image; images with different names get different report paths; a report has no lines exactly when the extractor found nothing |
| `ExternalFolder.ProcessFolder` | with_confidence.cpp:460-552 | aborts with false in order: missing folder, no images, report not created, with no confidence report written; otherwise there is no minimum-confidence line, one section and one confidence report per image in order, the marker is "No text detected", the success counter is the number of images that yielded text and the failure counter the number that did not, and the result is true exactly when some image yielded text |
| `ExternalFolder.ConfidenceSavedForEveryImage` | with_confidence.cpp:509-512 | every image's confidence report is written, and it has entries exactly when the table run or the word run produced some |

## Left out

- Starting the OCR tool as a process, waiting for it (30-second timeout),
  killing it, and checking its exit code. These are process I/O. Each run's
  outcome is an input: the text or table read back, or `None` when the run
  failed.
- Reading and removing temporary files. The conversion of the text-mode
  reader (line-ending translation) and the UTF-8 decoding are left out too.
  The parser's input is the decoded text.
- Writing the report and confidence files. Their content is modelled as
  datatypes rather than formatted text: separator lines, column padding and
  the "File:" and summary labels are not modelled.
- Failure to open an individual confidence report is not modelled. The code
  ignores that failure.
- `QDir` existence and name-filter matching (including case rules). The
  folder is an input that says whether it exists and what each filter lists.
- The engine's `Init`, `SetImage`, `GetUTF8Text` and `MeanTextConf`, and
  OpenCV's `imread` and grayscale conversion. These are foreign library
  calls. Their results per image are an `ImageProbe` input, and whether
  initialisation succeeds is an input too.
- `qsrand` seeding with the clock, and which values `qrand()` returns. The
  values are an input function. In `ExternalFolder` each image carries its
  own values, because the global random stream is not modelled.
- The printed variant of the confidence analysis (`printCharacterConfidence`)
  goes to the debug log. Its statistics are the saved report's; its lines
  are the saved report's lines without the word number. Only the saved
  report is modelled.
- The floating-point average and its one-decimal formatting. Only the
  integer sum and count are kept.
- Time stamps, debug and console logging, hard-coded tool paths, and the
  command-line `main`.
- Unicode classification (`isSpace`, `isLetter`, `isDigit`, `isPunct`,
  `toLower`). These are uninterpreted functions.
- `ExternalFolder.Recognise`: the plain text run of each image is an input.
  Each image gets two extractor runs. The first, in
  `processImageWithDetailedConfidence`, feeds the printout and is not
  modelled. The second, whose result is saved, is.
- 32-bit overflow in any `int` arithmetic of the code: `i*W` and
  `left + i*W/N` in the word division, `i*20` in the synthesiser, the
  confidence total, and the counters. The model uses mathematical integers,
  so it describes the code only when those values fit in 32 bits.

=== FILE: choices_confidence.dfy ===
/** The fallback confidence synthesiser of the external-process variant
    (`processImageWithChoicesConfidence`): when no table is available, every
    non-blank character of the recognised text gets a fabricated box and a
    confidence drawn from a band that depends on its character class. The
    values carry no evidence from the recogniser. */
module ChoicesConfidence {
  import opened Wrappers
  import opened CppInt
  import opened QtString
  import opened ConfidenceEntry

  const BaseConfidence: int := 85
  /** Horizontal distance between fabricated boxes, in pixels. */
  const CharPitch: int := 20
  const CharWidth: int := 18
  const CharHeight: int := 24

  /** The lower-case letters that get the highest letter band. */
  const CommonLetters: QString := Units("аеиорнтсвлкмдпугязбчйхжшюцэфщъыь")

  datatype CharClass = CommonLetter | OtherLetter | Digit | Punctuation | OtherChar

  /** The class of `ch`, asked in the source's order: letter first (common
      when its lower-case form is in `CommonLetters`), then digit, then
      punctuation, and anything else last. */
  function ClassOf(ch: CodeUnit, classes: CharClasses): (c: CharClass)
    ensures classes.isLetter(ch) ==>
      (c == CommonLetter || c == OtherLetter) && (c == CommonLetter <==> classes.toLower(ch) in CommonLetters)
    ensures !classes.isLetter(ch) && classes.isDigit(ch) ==> c == Digit
    ensures !classes.isLetter(ch) && !classes.isDigit(ch) && classes.isPunct(ch) ==> c == Punctuation
    ensures c == OtherChar <==> !classes.isLetter(ch) && !classes.isDigit(ch) && !classes.isPunct(ch)
  {
    if classes.isLetter(ch) then
      if classes.toLower(ch) in CommonLetters then CommonLetter else OtherLetter
    else if classes.isDigit(ch) then Digit
    else if classes.isPunct(ch) then Punctuation
    else OtherChar
  }

  /** The confidence band each class is meant to land in. */
  function BandLow(c: CharClass): int {
    match c
    case CommonLetter => 85
    case OtherLetter => 80
    case Digit => 90
    case Punctuation => 75
    case OtherChar => 70
  }

  function BandHigh(c: CharClass): int {
    match c
    case CommonLetter => 94
    case OtherLetter => 89
    case Digit => 97
    case Punctuation => 89
    case OtherChar => 89
  }

  /** The confidence before the clamp: the base, a class offset, and the
      random draw reduced with C++ `%`. A non-negative draw (all `qrand`
      gives) lands in the class's band; any draw at all lands in [51, 97]. */
  function RawConfidence(c: CharClass, draw: int): (v: int)
    ensures 51 <= v <= 97
    ensures draw >= 0 ==> BandLow(c) <= v <= BandHigh(c)
  {
    match c
    case CommonLetter => BaseConfidence + Rem(draw, 10)
    case OtherLetter => BaseConfidence - 5 + Rem(draw, 10)
    case Digit => BaseConfidence + 5 + Rem(draw, 8)
    case Punctuation => BaseConfidence - 10 + Rem(draw, 15)
    case OtherChar => BaseConfidence - 15 + Rem(draw, 20)
  }

  /** `qMax(0, qMin(100, v))`. */
  function Clamp(v: int): (r: int)
    ensures 0 <= r <= 100
    ensures 0 <= v <= 100 ==> r == v
  {
    if v > 100 then 100 else if v < 0 then 0 else v
  }

  /** The entry fabricated for the non-blank character `ch` at index `i`. Its
      confidence is the raw value unchanged: the clamp never bites. */
  function SynthEntry(ch: CodeUnit, i: nat, wordNum: int, draw: int, classes: CharClasses): (e: CharacterConfidence)
    ensures e.confidence == RawConfidence(ClassOf(ch, classes), draw)
    ensures 0 <= e.confidence <= 100
  {
    CharacterConfidence(
      [ch], Clamp(RawConfidence(ClassOf(ch, classes), draw)),
      CharPitch * i, 0, CharWidth, CharHeight,
      1, 1, 1, 1, wordNum)
  }

  /** Number of white-space code units in `s`. */
  function SpaceCount(s: QString, isSpace: CodeUnit -> bool): (n: nat)
    ensures n <= |s|
  {
    if s == [] then 0 else (if isSpace(s[0]) then 1 else 0) + SpaceCount(s[1..], isSpace)
  }

  /** The fixed part of every fabricated entry: one non-blank code unit, a
      confidence in [0, 100], y = 0, an 18 x 24 box, page, block, paragraph
      and line 1. */
  predicate Fabricated(e: CharacterConfidence, classes: CharClasses) {
    && |e.character| == 1 && !classes.isSpace(e.character[0])
    && 0 <= e.confidence <= 100
    && e.y == 0 && e.width == CharWidth && e.height == CharHeight
    && e.pageNum == 1 && e.blockNum == 1 && e.parNum == 1 && e.lineNum == 1
  }

  /** The confidence of `e` lies in the band of its character's class. */
  predicate InBand(e: CharacterConfidence, classes: CharClasses) {
    && |e.character| == 1
    && BandLow(ClassOf(e.character[0], classes)) <= e.confidence <= BandHigh(ClassOf(e.character[0], classes))
  }

  /** The loop of the synthesiser from index `i`, with the current word
      number and `k` random draws already used: white space bumps the word
      number and is skipped, every other code unit gets an entry and uses
      the next draw `rand(k)`. */
  function SynthFrom(text: QString, i: nat, wordNum: int, k: nat, classes: CharClasses, rand: nat -> int)
    : (r: seq<CharacterConfidence>)
    requires i <= |text|
    ensures |r| + SpaceCount(text[i..], classes.isSpace) == |text| - i
    ensures forall j :: 0 <= j < |r| ==> Fabricated(r[j], classes)
    ensures forall j :: 0 <= j < |r| ==>
      && CharPitch * i <= r[j].x < CharPitch * |text|
      && wordNum <= r[j].wordNum <= wordNum + SpaceCount(text[i..], classes.isSpace)
    ensures forall j1, j2 :: 0 <= j1 < j2 < |r| ==> r[j1].x < r[j2].x && r[j1].wordNum <= r[j2].wordNum
    ensures (forall n: nat :: k <= n ==> rand(n) >= 0) ==> forall j :: 0 <= j < |r| ==> InBand(r[j], classes)
    decreases |text| - i
  {
    if i == |text| then []
    else
      assert text[i..][1..] == text[i + 1..];
      if classes.isSpace(text[i]) then
        SynthFrom(text, i + 1, wordNum + 1, k, classes, rand)
      else
        [SynthEntry(text[i], i, wordNum, rand(k), classes)] + SynthFrom(text, i + 1, wordNum, k + 1, classes, rand)
  }

  /** The synthesiser: the recognised text (`None` when the tool failed or
      its output could not be read) is trimmed, and its entries fabricated
      with word numbers starting at 1. Empty text gives no entries. */
  function Synthesise(raw: Option<QString>, classes: CharClasses, rand: nat -> int): (r: seq<CharacterConfidence>)
    ensures r != [] <==> raw.Some? && Trim(raw.value, classes.isSpace) != []
    ensures raw.Some? ==> |r| + SpaceCount(Trim(raw.value, classes.isSpace), classes.isSpace)
                          == |Trim(raw.value, classes.isSpace)|
    ensures r != [] ==> r[0].x == 0 && r[0].wordNum == 1
    ensures forall j :: 0 <= j < |r| ==> Fabricated(r[j], classes) && r[j].wordNum >= 1
    ensures forall j1, j2 :: 0 <= j1 < j2 < |r| ==> r[j1].x < r[j2].x && r[j1].wordNum <= r[j2].wordNum
    ensures (forall n: nat :: rand(n) >= 0) ==> forall j :: 0 <= j < |r| ==> InBand(r[j], classes)
  {
    match raw
    case None => []
    case Some(s) =>
      var t := Trim(s, classes.isSpace);
      if t == [] then []
      else
        assert t[0..] == t;
        SynthFrom(t, 0, 1, 0, classes, rand)
  }

  /** How many non-blank code units lie in `text[i..p]`: the index of the
      entry fabricated for position `p` when the loop starts at `i`. */
  function EntryIndex(text: QString, i: nat, p: nat, isSpace: CodeUnit -> bool): nat
    requires i <= p <= |text|
  {
    (p - i) - SpaceCount(text[i..p], isSpace)
  }

  /** The entry fabricated for each non-blank position `p` of the text, as an
      independent description of the loop: it is entry number `EntryIndex`,
      sits at `x = 20 * p`, carries the word number plus the white space
      before `p`, and uses the `EntryIndex`-th of the remaining random draws. */
  lemma {:induction false} SynthAt(text: QString, i: nat, wordNum: int, k: nat, classes: CharClasses,
                                   rand: nat -> int, p: nat)
    requires i <= p < |text| && !classes.isSpace(text[p])
    ensures EntryIndex(text, i, p, classes.isSpace) < |SynthFrom(text, i, wordNum, k, classes, rand)|
    ensures SynthFrom(text, i, wordNum, k, classes, rand)[EntryIndex(text, i, p, classes.isSpace)]
            == SynthEntry(text[p], p, wordNum + SpaceCount(text[i..p], classes.isSpace),
                          rand(k + EntryIndex(text, i, p, classes.isSpace)), classes)
    decreases p - i, 1
  {
    if i == p {
      assert text[i..p] == [];
    } else if classes.isSpace(text[i]) {
      SynthAtSkip(text, i, wordNum, k, classes, rand, p);
    } else {
      SynthAtEmit(text, i, wordNum, k, classes, rand, p);
    }
  }

  /** `SynthAt` past a white-space code unit at `i`. */
  lemma {:induction false} SynthAtSkip(text: QString, i: nat, wordNum: int, k: nat, classes: CharClasses,
                                       rand: nat -> int, p: nat)
    requires i < p < |text| && !classes.isSpace(text[p]) && classes.isSpace(text[i])
    ensures EntryIndex(text, i, p, classes.isSpace) < |SynthFrom(text, i, wordNum, k, classes, rand)|
    ensures SynthFrom(text, i, wordNum, k, classes, rand)[EntryIndex(text, i, p, classes.isSpace)]
            == SynthEntry(text[p], p, wordNum + SpaceCount(text[i..p], classes.isSpace),
                          rand(k + EntryIndex(text, i, p, classes.isSpace)), classes)
    decreases p - i, 0
  {
    CountStep(text, i, p, classes.isSpace);
    SynthSkips(text, i, wordNum, k, classes, rand);
    SynthAt(text, i + 1, wordNum + 1, k, classes, rand, p);
  }

  /** `SynthAt` past a non-blank code unit at `i`, which takes entry 0. */
  lemma {:induction false} SynthAtEmit(text: QString, i: nat, wordNum: int, k: nat, classes: CharClasses,
                                       rand: nat -> int, p: nat)
    requires i < p < |text| && !classes.isSpace(text[p]) && !classes.isSpace(text[i])
    ensures EntryIndex(text, i, p, classes.isSpace) < |SynthFrom(text, i, wordNum, k, classes, rand)|
    ensures SynthFrom(text, i, wordNum, k, classes, rand)[EntryIndex(text, i, p, classes.isSpace)]
            == SynthEntry(text[p], p, wordNum + SpaceCount(text[i..p], classes.isSpace),
                          rand(k + EntryIndex(text, i, p, classes.isSpace)), classes)
    decreases p - i, 0
  {
    CountStep(text, i, p, classes.isSpace);
    SynthEmits(text, i, wordNum, k, classes, rand);
    SynthAt(text, i + 1, wordNum, k + 1, classes, rand, p);
    var e := EntryIndex(text, i + 1, p, classes.isSpace);
    var c := SpaceCount(text[i..p], classes.isSpace);
    assert c == SpaceCount(text[i + 1..p], classes.isSpace);
    assert EntryIndex(text, i, p, classes.isSpace) == e + 1;
    var rest := SynthFrom(text, i + 1, wordNum, k + 1, classes, rand);
    var whole := SynthFrom(text, i, wordNum, k, classes, rand);
    assert whole == [SynthEntry(text[i], i, wordNum, rand(k), classes)] + rest;
    assert whole[e + 1] == rest[e];
  }

  /** Counting white space in `text[i..p]` starts with `text[i]`. */
  lemma CountStep(text: QString, i: nat, p: nat, isSpace: CodeUnit -> bool)
    requires i < p <= |text|
    ensures SpaceCount(text[i..p], isSpace)
            == (if isSpace(text[i]) then 1 else 0) + SpaceCount(text[i + 1..p], isSpace)
  {
    assert text[i..p][0] == text[i];
    assert text[i..p][1..] == text[i + 1..p];
  }

  lemma SynthSkips(text: QString, i: nat, wordNum: int, k: nat, classes: CharClasses, rand: nat -> int)
    requires i < |text| && classes.isSpace(text[i])
    ensures SynthFrom(text, i, wordNum, k, classes, rand) == SynthFrom(text, i + 1, wordNum + 1, k, classes, rand)
  {
  }

  lemma SynthEmits(text: QString, i: nat, wordNum: int, k: nat, classes: CharClasses, rand: nat -> int)
    requires i < |text| && !classes.isSpace(text[i])
    ensures SynthFrom(text, i, wordNum, k, classes, rand)
            == [SynthEntry(text[i], i, wordNum, rand(k), classes)] + SynthFrom(text, i + 1, wordNum, k + 1, classes, rand)
  {
  }

  /** `SynthAt` for the whole synthesiser: in the trimmed text, the entry
      for non-blank position `p` has word number 1 plus the white space before
      `p`. */
  lemma SynthesiseAt(s: QString, classes: CharClasses, rand: nat -> int, p: nat)
    requires p < |Trim(s, classes.isSpace)| && !classes.isSpace(Trim(s, classes.isSpace)[p])
    ensures var t := Trim(s, classes.isSpace);
      && EntryIndex(t, 0, p, classes.isSpace) < |Synthesise(Some(s), classes, rand)|
      && Synthesise(Some(s), classes, rand)[EntryIndex(t, 0, p, classes.isSpace)]
         == SynthEntry(t[p], p, 1 + SpaceCount(t[..p], classes.isSpace),
                       rand(EntryIndex(t, 0, p, classes.isSpace)), classes)
  {
    var t := Trim(s, classes.isSpace);
    assert t[0..] == t;
    assert Synthesise(Some(s), classes, rand) == SynthFrom(t, 0, 1, 0, classes, rand);
    assert t[0..p] == t[..p];
    SynthAt(t, 0, 1, 0, classes, rand, p);
  }
}

=== FILE: confidence_entry.dfy ===
/** The per-character record both confidence extractors produce
    (`CharacterConfidence` in with_confidence.cpp). */
module ConfidenceEntry {
  import opened QtString

  /** One recognised character: its text (one code unit, or a whole table
      cell at character level), its confidence in percent, its box in pixels,
      and its place in the page / block / paragraph / line / word hierarchy. */
  datatype CharacterConfidence = CharacterConfidence(
    character: QString,
    confidence: int,
    x: int, y: int, width: int, height: int,
    pageNum: int, blockNum: int, parNum: int, lineNum: int, wordNum: int)

  function Confidences(entries: seq<CharacterConfidence>): (cs: seq<int>)
    ensures |cs| == |entries|
    ensures forall i :: 0 <= i < |entries| ==> cs[i] == entries[i].confidence
  {
    seq(|entries|, i requires 0 <= i < |entries| => entries[i].confidence)
  }
}

=== FILE: confidence_extractor.dfy ===
/** `processImageWithConfidence` of the external-process variant: the table
    method runs first, and the synthesiser is consulted only when the table
    gave no entries. */
module ConfidenceExtractor {
  import opened Wrappers
  import opened QtString
  import opened ConfidenceEntry
  import opened TsvConfidence
  import opened ChoicesConfidence

  /** The two runs of the OCR tool the extractor can start. */
  datatype ToolRun = TableRun | TextRun

  datatype Extraction = Extraction(entries: seq<CharacterConfidence>, runs: seq<ToolRun>)

  /** The entries of the table run. `None` stands for a run that did not
      start, timed out, or whose table file could not be opened: all of them
      give an empty list. */
  function TableResult(table: Option<QString>, isSpace: CodeUnit -> bool): (r: seq<CharacterConfidence>)
    ensures table.None? ==> r == []
    ensures table.Some? && |ReadLines(table.value)| <= 1 ==> r == []
    ensures table.Some? ==> forall j :: 0 <= j < |r| ==> InSomePart(r[j], EntriesPerLine(ReadLines(table.value), isSpace)[1..])
  {
    match table
    case None => []
    case Some(content) => ParseTsv(content, isSpace)
  }

  /** `table` is what the table run would read back, `text` what the plain
      text run would read back, `rand` the successive `qrand()` values. */
  function ExtractConfidence(table: Option<QString>, text: Option<QString>,
                             classes: CharClasses, rand: nat -> int): (r: Extraction)
    ensures |r.runs| >= 1 && r.runs[0] == TableRun
    ensures TextRun in r.runs <==> TableResult(table, classes.isSpace) == []
    ensures TextRun !in r.runs ==> r.entries == TableResult(table, classes.isSpace)
    ensures TextRun in r.runs ==> r.entries == Synthesise(text, classes, rand)
    ensures r.entries == [] <==>
      TableResult(table, classes.isSpace) == [] && (text.None? || Trim(text.value, classes.isSpace) == [])
  {
    var fromTable := TableResult(table, classes.isSpace);
    if fromTable != [] then Extraction(fromTable, [TableRun])
    else Extraction(Synthesise(text, classes, rand), [TableRun, TextRun])
  }

  /** A usable table wins even when the text run would have produced more. */
  lemma TablePreferred(table: Option<QString>, text: Option<QString>, classes: CharClasses, rand: nat -> int)
    requires TableResult(table, classes.isSpace) != []
    ensures ExtractConfidence(table, text, classes, rand).entries == TableResult(table, classes.isSpace)
    ensures TextRun !in ExtractConfidence(table, text, classes, rand).runs
  {
  }
}

=== FILE: confidence_report.dfy ===
/** The content of the per-image confidence report (`saveConfidenceToFile`):
    one line per entry with blank characters spelled out, then statistics
    over the confidences. The printout (`printCharacterConfidence`) uses the
    same escape and statistics. */
module ConfidenceReport {
  import opened Wrappers
  import opened QtString
  import opened ConfidenceEntry

  /** Confidences below this count as low. */
  const LowConfidenceThreshold: int := 70

  /** How an entry's character is shown: a lone space, tab or line feed is
      spelled out, anything else is shown as it is. */
  function DisplayCharacter(c: QString): (r: QString)
    ensures c == [Space] ==> r == Units("[SPACE]")
    ensures c == [Tab] ==> r == Units("[TAB]")
    ensures c == [LineFeed] ==> r == Units("[NEWLINE]")
    ensures c != [Space] && c != [Tab] && c != [LineFeed] ==> r == c
    ensures r != [Space] && r != [Tab] && r != [LineFeed]
  {
    var afterSpace := if c == [Space] then Units("[SPACE]") else c;
    var afterTab := if afterSpace == [Tab] then Units("[TAB]") else afterSpace;
    if afterTab == [LineFeed] then Units("[NEWLINE]") else afterTab
  }

  /** The spelled-out names themselves, which a character could only equal
      if it were that very text. */
  predicate IsEscapeName(c: QString) {
    c == Units("[SPACE]") || c == Units("[TAB]") || c == Units("[NEWLINE]")
  }

  /** Reading a shown character back: the spelled-out names stand for the
      blank they replace, anything else for itself. */
  function ReadShown(shown: QString): QString {
    if shown == Units("[SPACE]") then [Space]
    else if shown == Units("[TAB]") then [Tab]
    else if shown == Units("[NEWLINE]") then [LineFeed]
    else shown
  }

  /** Showing a character loses nothing: it reads back as itself unless it
      is literally one of the spelled-out names. */
  lemma ReadShownDisplay(c: QString)
    requires !IsEscapeName(c)
    ensures ReadShown(DisplayCharacter(c)) == c
  {
    assert |Units("[SPACE]")| == 7 && |Units("[TAB]")| == 5 && |Units("[NEWLINE]")| == 9;
  }

  /** Different single characters are shown differently: the spelled-out
      names are longer than one code unit. */
  lemma DisplayDistinguishesCharacters(c1: QString, c2: QString)
    requires |c1| == 1 && |c2| == 1 && c1 != c2
    ensures DisplayCharacter(c1) != DisplayCharacter(c2)
  {
    var d1, d2 := DisplayCharacter(c1), DisplayCharacter(c2);
    assert |d1| == 1 <==> d1 == c1;
    assert |d2| == 1 <==> d2 == c2;
  }

  /** The statistics block: number of entries, the exact sum of the
      confidences, the running minimum (started at 100) and maximum (started
      at 0), and the number of confidences below `LowConfidenceThreshold`. */
  datatype Stats = Stats(count: nat, totalConf: int, minConf: int, maxConf: int, lowConfCount: nat)

  function Sum(cs: seq<int>): int {
    if cs == [] then 0 else cs[0] + Sum(cs[1..])
  }

  function CountBelow(cs: seq<int>, bound: int): (n: nat)
    ensures n <= |cs|
  {
    if cs == [] then 0 else (if cs[0] < bound then 1 else 0) + CountBelow(cs[1..], bound)
  }

  /** One pass of the statistics loop. */
  function Step(acc: Stats, c: int): Stats {
    Stats(acc.count + 1,
          acc.totalConf + c,
          if c < acc.minConf then c else acc.minConf,
          if c > acc.maxConf then c else acc.maxConf,
          acc.lowConfCount + (if c < LowConfidenceThreshold then 1 else 0))
  }

  /** The statistics loop over `cs`, starting from `acc`. */
  function Accumulate(cs: seq<int>, acc: Stats): (r: Stats)
    ensures r.count == acc.count + |cs|
    ensures r.totalConf == acc.totalConf + Sum(cs)
    ensures r.lowConfCount == acc.lowConfCount + CountBelow(cs, LowConfidenceThreshold)
    ensures r.minConf <= acc.minConf && forall i :: 0 <= i < |cs| ==> r.minConf <= cs[i]
    ensures r.minConf == acc.minConf || r.minConf in cs
    ensures r.maxConf >= acc.maxConf && forall i :: 0 <= i < |cs| ==> r.maxConf >= cs[i]
    ensures r.maxConf == acc.maxConf || r.maxConf in cs
  {
    if cs == [] then acc else Accumulate(cs[1..], Step(acc, cs[0]))
  }

  /** The statistics of a list of entries; none for an empty list, where the
      source writes no statistics block. */
  function Statistics(entries: seq<CharacterConfidence>): (r: Option<Stats>)
    ensures r.None? <==> entries == []
    ensures r.Some? ==> var s := r.value; var cs := Confidences(entries);
      && s.count == |entries|
      && s.totalConf == Sum(cs)
      && s.lowConfCount == CountBelow(cs, LowConfidenceThreshold) <= s.count
      && s.minConf <= 100 && (s.minConf == 100 || s.minConf in cs)
      && s.maxConf >= 0 && (s.maxConf == 0 || s.maxConf in cs)
      && forall i :: 0 <= i < |entries| ==> s.minConf <= entries[i].confidence <= s.maxConf
  {
    if entries == [] then None else Some(Accumulate(Confidences(entries), Stats(0, 0, 100, 0, 0)))
  }

  /** For percentages the minimum and maximum are attained: both are the
      confidence of some entry. */
  lemma StatisticsOfPercentages(entries: seq<CharacterConfidence>)
    requires entries != []
    requires forall i :: 0 <= i < |entries| ==> 0 <= entries[i].confidence <= 100
    ensures var s := Statistics(entries).value;
      && s.minConf in Confidences(entries) && s.maxConf in Confidences(entries)
      && 0 <= s.minConf <= s.maxConf <= 100
  {
    var s := Statistics(entries).value;
    var cs := Confidences(entries);
    assert s.minConf <= cs[0] <= s.maxConf;
    if s.minConf == 100 {
      assert cs[0] == 100;
    }
    if s.maxConf == 0 {
      assert cs[0] == 0;
    }
  }

  /** One line of the report table. */
  datatype ReportLine = ReportLine(shown: QString, confidence: int, x: int, y: int, width: int, height: int, wordNum: int)

  /** The content `saveConfidenceToFile` writes: a line per entry, then the
      statistics block when there are entries. */
  datatype ConfidenceFile = ConfidenceFile(lines: seq<ReportLine>, stats: Option<Stats>)

  /** The report of `entries`. Every line reads back to its entry: the
      character (unless it is literally a spelled-out name) and every number;
      the statistics block is present exactly when some line is, and
      summarises the confidences of the lines. */
  function ConfidenceFileOf(entries: seq<CharacterConfidence>): (f: ConfidenceFile)
    ensures |f.lines| == |entries|
    ensures forall i :: 0 <= i < |entries| && !IsEscapeName(entries[i].character) ==>
      ReadShown(f.lines[i].shown) == entries[i].character
    ensures forall i :: 0 <= i < |entries| ==>
      var e, l := entries[i], f.lines[i];
      && l.shown != [Space] && l.shown != [Tab] && l.shown != [LineFeed]
      && (IsEscapeName(e.character) ==> l.shown == e.character)
      && l.confidence == e.confidence && l.x == e.x && l.y == e.y
      && l.width == e.width && l.height == e.height && l.wordNum == e.wordNum
    ensures forall i, j ::
              && 0 <= i < |entries| && 0 <= j < |entries|
              && |entries[i].character| == 1 && |entries[j].character| == 1
              && entries[i].character != entries[j].character
              ==> f.lines[i].shown != f.lines[j].shown
    ensures f.stats == Statistics(entries)
    ensures f.stats.None? <==> f.lines == []
    ensures f.stats.Some? ==>
      && f.stats.value.count == |f.lines|
      && f.stats.value.totalConf == Sum(Confidences(entries))
      && forall i :: 0 <= i < |f.lines| ==> f.stats.value.minConf <= f.lines[i].confidence <= f.stats.value.maxConf
  {
    var lines := seq(|entries|, i requires 0 <= i < |entries| =>
      var e := entries[i];
      ReportLine(DisplayCharacter(e.character), e.confidence, e.x, e.y, e.width, e.height, e.wordNum));
    forall i | 0 <= i < |entries| && !IsEscapeName(entries[i].character)
      ensures ReadShown(lines[i].shown) == entries[i].character
    {
      ReadShownDisplay(entries[i].character);
    }
    forall i, j | 0 <= i < |entries| && 0 <= j < |entries| && |entries[i].character| == 1
                  && |entries[j].character| == 1 && entries[i].character != entries[j].character
      ensures lines[i].shown != lines[j].shown
    {
      DisplayDistinguishesCharacters(entries[i].character, entries[j].character);
    }
    ConfidenceFile(lines, Statistics(entries))
  }
}

=== FILE: cpp_int.dfy ===
/** The C++ `int` arithmetic the source relies on: the 32-bit range that
    `QString::toInt` checks, and `/` and `%`, which truncate toward zero
    (Dafny's own `/` and `%` are Euclidean). */
module CppInt {

  const IntMin: int := -0x8000_0000
  const IntMax: int := 0x7FFF_FFFF

  predicate InInt32(n: int) {
    IntMin <= n <= IntMax
  }

  function Abs(n: int): nat {
    if n < 0 then -n else n
  }

  /** C++ `a / b`: the exact quotient with its fractional part dropped. */
  function Quot(a: int, b: int): (q: int)
    requires b != 0
    ensures a >= 0 ==> 0 <= q * b <= a
    ensures a < 0 ==> a <= q * b <= 0
    ensures Abs(a - q * b) < Abs(b)
  {
    var m := Abs(a) / Abs(b);
    QuotStep(a, b, m);
    if (a < 0) == (b < 0) then m else -m
  }

  /** The product behind `Quot`: `m` whole copies of `|b|` carrying the sign of `a`. */
  lemma QuotStep(a: int, b: int, m: int)
    requires b != 0 && m == Abs(a) / Abs(b)
    ensures var q := if (a < 0) == (b < 0) then m else -m;
      && (a >= 0 ==> 0 <= q * b <= a)
      && (a < 0 ==> a <= q * b <= 0)
      && Abs(a - q * b) < Abs(b)
  {
    var B: int := Abs(b);
    var mB := m * B;
    assert Abs(a) == mB + Abs(a) % B;
    assert 0 <= mB;
    var q := if (a < 0) == (b < 0) then m else -m;
    if b > 0 {
      assert q * b == (if a < 0 then -mB else mB);
    } else {
      assert b == -B;
      assert q * b == (if a < 0 then -mB else mB);
    }
  }

  /** C++ `a % b`: what is left of `a` after the truncated quotient. */
  function Rem(a: int, b: int): (r: int)
    requires b != 0
    ensures Abs(r) < Abs(b)
    ensures a >= 0 ==> r >= 0
    ensures a <= 0 ==> r <= 0
    ensures Quot(a, b) * b + r == a
  {
    a - Quot(a, b) * b
  }

  /** On a non-negative dividend and positive divisor, truncation and Dafny's
      Euclidean division agree. */
  lemma QuotOfNonNegative(a: int, b: int)
    requires a >= 0 && b > 0
    ensures Quot(a, b) == a / b
    ensures Rem(a, b) == a % b
  {
  }

  /** Euclidean division by a positive number is monotone. */
  lemma DivMonotone(a: int, b: int, n: int)
    requires n > 0 && a <= b
    ensures a / n <= b / n
  {
    var d := a / n - b / n;
    assert d * n == (a - a % n) - (b - b % n);
    if d > 0 {
      MulMonotone(1, d, n);
    }
  }

  /** Rounding down two shares separately never gives more than rounding
      down their sum. */
  lemma DivAddLower(a: int, b: int, n: int)
    requires n > 0
    ensures a / n + b / n <= (a + b) / n
  {
    var qa, qb := a / n, b / n;
    assert a == qa * n + a % n;
    assert b == qb * n + b % n;
    assert a + b == (qa + qb) * n + (a % n + b % n);
    var d := (qa + qb) - (a + b) / n;
    assert d * n == (a + b) % n - (a % n + b % n);
    if d > 0 {
      MulMonotone(1, d, n);
    }
  }

  lemma MulMonotone(i: int, j: int, w: int)
    requires i <= j && w >= 0
    ensures i * w <= j * w
  {
    assert j * w - i * w == (j - i) * w;
  }

  lemma MulDivCancel(n: int, w: int)
    requires n > 0
    ensures (n * w) / n == w
  {
    DivUnique(n * w, n, w, 0);
  }

  /** The quotient is the only `q` with `x == q * n + r` and `0 <= r < n`. */
  lemma DivUnique(x: int, n: int, q: int, r: int)
    requires n > 0 && 0 <= r < n && x == q * n + r
    ensures x / n == q
  {
    var d := q - x / n;
    assert d * n == x % n - r;
    if d > 0 {
      MulMonotone(1, d, n);
    } else if d < 0 {
      MulMonotone(d, -1, n);
    }
  }
}

=== FILE: engine_folder.dfy ===
/** `processFolder` of the in-process variant (on_folder.cpp): initialise
    the engine, list the images, open the report, write one section per
    image (through the confidence gate when it is on), then the summary. */
module EngineFolder {
  import opened Wrappers
  import opened QtString
  import opened EngineOcr
  import opened OcrReport

  /** The run's arguments; the output path itself only matters through
      whether it can be opened. */
  datatype Config = Config(folderPath: QString, language: QString, useConfidence: bool,
                           minConfidence: int, pageSegMode: int)

  /** The text one listed image yields once the engine is initialised. */
  function Recognise(config: Config, probe: ImageProbe): (text: QString)
    ensures text != [] ==> probe.decodes && probe.utf8Text == Some(text)
    ensures text != [] && config.useConfidence ==> probe.meanConf >= config.minConfidence
    ensures probe.decodes && probe.utf8Text.Some? && (config.useConfidence ==> probe.meanConf >= config.minConfidence)
            ==> text == probe.utf8Text.value
  {
    if config.useConfidence then ProcessImageWithConfidence(true, probe, config.minConfidence).text
    else ProcessImage(true, probe).text
  }

  /** `Recognise` for each listed file name. */
  function Recogniser(config: Config, probe: QString -> ImageProbe): (recognise: QString -> QString)
    ensures forall p :: recognise(p) == Recognise(config, probe(p))
  {
    p => Recognise(config, probe(p))
  }

  function Marker(useConfidence: bool): string {
    if useConfidence then LowConfidenceMarker else NoTextMarker
  }

  /** `engineInit` says whether the engine initialises for a language and
      page segmentation mode, `outputOpens` whether the report can be
      created, `probe` what each listed image yields. The second result is
      the function's return value. */
  function ProcessFolder(config: Config, engineInit: (QString, int) -> bool, dir: Directory,
                         outputOpens: bool, probe: QString -> ImageProbe,
                         isSpace: CodeUnit -> bool): (r: (FolderRun, bool))
    ensures var (run, ok) := r;
      var init := engineInit(config.language, config.pageSegMode);
      && (!init ==> run == Aborted(EngineInitFailed))
      && (init && !dir.present ==> run == Aborted(FolderMissing))
      && (init && dir.present && ListImages(dir) == [] ==> run == Aborted(NoImages))
      && (init && dir.present && ListImages(dir) != [] && !outputOpens ==> run == Aborted(OutputNotOpened))
      && (run.Completed? <==> init && dir.present && ListImages(dir) != [] && outputOpens)
      && (run.Aborted? ==> !ok)
    ensures var (run, ok) := r;
      run.Completed? ==>
        && Describes(run.report,
                     Header(config.folderPath, config.language, |ListImages(dir)|,
                            if config.useConfidence then Some(config.minConfidence) else None),
                     ListImages(dir), Recogniser(config, probe), Marker(config.useConfidence), isSpace)
        && (ok <==> run.report.summary.succeeded > 0)
  {
    if !engineInit(config.language, config.pageSegMode) then (Aborted(EngineInitFailed), false)
    else if !dir.present then (Aborted(FolderMissing), false)
    else
      var files := ListImages(dir);
      if files == [] then (Aborted(NoImages), false)
      else if !outputOpens then (Aborted(OutputNotOpened), false)
      else
        var header := Header(config.folderPath, config.language, |files|,
                             if config.useConfidence then Some(config.minConfidence) else None);
        var report := WriteReport(header, files, Recogniser(config, probe),
                                  Marker(config.useConfidence), isSpace);
        (Completed(report), report.summary.succeeded > 0)
  }

  /** With the gate on, an image whose text the engine would return still
      fails when its mean confidence is below the threshold. */
  lemma LowConfidenceFails(config: Config, probe: ImageProbe)
    requires config.useConfidence && probe.meanConf < config.minConfidence
    ensures Recognise(config, probe) == []
  {
  }

  /** A folder listing `a` then `b`, with the gate at 60, where `a` yields
      text at mean confidence 80 and `b` is recognised at 40: one success,
      one low-confidence failure, a total of two, and the run reports
      success. */
  lemma TwoImagesOneBelowThreshold(config: Config, engineInit: (QString, int) -> bool, dir: Directory,
                                   probe: QString -> ImageProbe, a: QString, b: QString,
                                   isSpace: CodeUnit -> bool)
    requires config.useConfidence && config.minConfidence == 60
    requires engineInit(config.language, config.pageSegMode) && dir.present
    requires ListImages(dir) == [a, b]
    requires probe(a).decodes && probe(a).meanConf == 80
    requires probe(a).utf8Text.Some? && probe(a).utf8Text.value != []
    requires probe(b).meanConf == 40
    ensures ProcessFolder(config, engineInit, dir, true, probe, isSpace)
            == (Completed(Report(Header(config.folderPath, config.language, 2, Some(60)),
                                 [Section(a, Recognised(Trim(probe(a).utf8Text.value, isSpace))),
                                  Section(b, Failed(LowConfidenceMarker))],
                                 Summary(1, 1, 2))), true)
  {
    var header := Header(config.folderPath, config.language, 2, Some(60));
    var recognise := Recogniser(config, probe);
    assert recognise(a) == probe(a).utf8Text.value;
    assert recognise(b) == [];
    OneSucceedsOneFails(header, a, b, recognise, LowConfidenceMarker, isSpace);
    Completes(config, engineInit, dir, probe, isSpace);
  }

  /** A run that passes every abort check writes the report of its images. */
  lemma Completes(config: Config, engineInit: (QString, int) -> bool, dir: Directory,
                  probe: QString -> ImageProbe, isSpace: CodeUnit -> bool)
    requires engineInit(config.language, config.pageSegMode) && dir.present && ListImages(dir) != []
    ensures var files := ListImages(dir);
      var header := Header(config.folderPath, config.language, |files|,
                           if config.useConfidence then Some(config.minConfidence) else None);
      var report := WriteReport(header, files, Recogniser(config, probe), Marker(config.useConfidence), isSpace);
      ProcessFolder(config, engineInit, dir, true, probe, isSpace)
      == (Completed(report), report.summary.succeeded > 0)
  {
  }

  /** The report over two files of which the first is recognised and the
      second is not. */
  lemma OneSucceedsOneFails(header: Header, a: QString, b: QString, recognise: QString -> QString,
                            marker: string, isSpace: CodeUnit -> bool)
    requires recognise(a) != [] && recognise(b) == []
    ensures WriteReport(header, [a, b], recognise, marker, isSpace)
            == Report(header, [Section(a, Recognised(Trim(recognise(a), isSpace))), Section(b, Failed(marker))],
                      Summary(1, 1, 2))
  {
    var sections := Sections([a, b], recognise, marker, isSpace);
    assert [a, b][1..] == [b];
    assert sections == [Section(a, Recognised(Trim(recognise(a), isSpace))), Section(b, Failed(marker))];
    assert Tally(sections[1..]) == Summary(0, 1, 1);
  }
}

=== FILE: engine_ocr.dfy ===
/** The per-image recognition of the in-process variant (on_folder.cpp):
    the image is decoded, handed to the engine, and its text (and, with the
    confidence gate, its mean confidence) read back. The imaging library and
    the engine are abstracted into one `ImageProbe` per image. */
module EngineOcr {
  import opened Wrappers
  import opened QtString

  /** What decoding and recognising one image yields: whether the image
      decodes, the engine's mean confidence for it, and the text the engine
      returns (`None` for a null result). */
  datatype ImageProbe = ImageProbe(decodes: bool, meanConf: int, utf8Text: Option<QString>)

  /** The engine queries made for one image, in order. */
  datatype EngineCall = SetImage | MeanTextConf | GetUtf8Text

  datatype Recognition = Recognition(text: QString, calls: seq<EngineCall>)

  /** `processImage`: no engine or an image that does not decode gives empty
      text without touching the engine; otherwise the engine's text, or empty
      text when the engine returns none. */
  function ProcessImage(ready: bool, probe: ImageProbe): (r: Recognition)
    ensures r.calls == [] <==> !ready || !probe.decodes
    ensures r.calls != [] ==> r.calls == [SetImage, GetUtf8Text]
    ensures r.text != [] ==> ready && probe.decodes && probe.utf8Text == Some(r.text)
    ensures ready && probe.decodes && probe.utf8Text.Some? ==> r.text == probe.utf8Text.value
  {
    if !ready then Recognition([], [])
    else if !probe.decodes then Recognition([], [])
    else
      match probe.utf8Text
      case None => Recognition([], [SetImage, GetUtf8Text])
      case Some(t) => Recognition(t, [SetImage, GetUtf8Text])
  }

  /** `processImageWithConfidence`: as `ProcessImage`, but the engine's mean
      confidence is read first and the text is only asked for when that
      confidence is at least `minConfidence`. */
  function ProcessImageWithConfidence(ready: bool, probe: ImageProbe, minConfidence: int): (r: Recognition)
    ensures r.calls == [] <==> !ready || !probe.decodes
    ensures r.calls != [] ==> |r.calls| >= 2 && r.calls[..2] == [SetImage, MeanTextConf]
    ensures GetUtf8Text in r.calls <==> ready && probe.decodes && probe.meanConf >= minConfidence
    ensures r.text != [] ==>
      ready && probe.decodes && probe.meanConf >= minConfidence && probe.utf8Text == Some(r.text)
  {
    if !ready then Recognition([], [])
    else if !probe.decodes then Recognition([], [])
    else if probe.meanConf < minConfidence then Recognition([], [SetImage, MeanTextConf])
    else
      match probe.utf8Text
      case None => Recognition([], [SetImage, MeanTextConf, GetUtf8Text])
      case Some(t) => Recognition(t, [SetImage, MeanTextConf, GetUtf8Text])
  }

  /** The gate only ever removes text: with it, an image yields what it
      yields without it, except that a mean confidence strictly below the
      threshold yields nothing. */
  lemma GateOnlyFilters(ready: bool, probe: ImageProbe, minConfidence: int)
    ensures ProcessImageWithConfidence(ready, probe, minConfidence).text
            == if probe.meanConf < minConfidence then [] else ProcessImage(ready, probe).text
  {
  }

  /** For an image with text, the result is kept exactly when its mean
      confidence reaches the threshold; a confidence equal to it passes. */
  lemma GateIsInclusive(probe: ImageProbe, minConfidence: int)
    requires probe.decodes && probe.utf8Text.Some? && probe.utf8Text.value != []
    ensures ProcessImageWithConfidence(true, probe, minConfidence).text != []
            <==> probe.meanConf >= minConfidence
  {
  }
}

=== FILE: external_folder.dfy ===
/** `processFolder` of the external-process variant (with_confidence.cpp):
    list the images, open the report, and for each image write a section
    and a separate confidence report, then the summary. There is no engine
    to initialise and no confidence gate. */
module ExternalFolder {
  import opened Wrappers
  import opened QtString
  import opened ConfidenceEntry
  import opened ConfidenceExtractor
  import opened ConfidenceReport
  import opened OcrReport

  /** What the OCR tool's runs yield for one image, as read back: the plain
      text run (`None` when it fails to start, times out, exits non-zero or
      its output cannot be read), the table run and the single-word text run
      the extractor uses, and the `qrand()` values consumed while
      synthesising. */
  datatype ImageTools = ImageTools(text: Option<QString>, table: Option<QString>,
                                   wordText: Option<QString>, rand: nat -> int)

  /** A confidence report written next to the aggregate report. */
  datatype SavedConfidence = SavedConfidence(path: QString, file: ConfidenceFile)

  datatype ExternalRun = ExternalRun(run: FolderRun, ok: bool, confidenceFiles: seq<SavedConfidence>)

  /** The text an image yields: the plain run's output, empty on failure. */
  function Recognise(tools: ImageTools): (text: QString)
    ensures text != [] ==> tools.text == Some(text)
    ensures tools.text.Some? ==> text == tools.text.value
  {
    tools.text.GetOr([])
  }

  function Recogniser(tools: QString -> ImageTools): (recognise: QString -> QString)
    ensures forall p :: recognise(p) == Recognise(tools(p))
  {
    p => Recognise(tools(p))
  }

  /** The path of an image's confidence report. */
  function ConfidencePath(outputFile: QString, fileName: QString): (path: QString)
    ensures |path| == |outputFile| + |fileName| + 16
    ensures path[..|outputFile|] == outputFile
    ensures path[|outputFile|] == Units("_")[0]
    ensures path[|outputFile| + 1..|outputFile| + 1 + |fileName|] == fileName
    ensures path[|outputFile| + 1 + |fileName|..] == Units("_confidence.txt")
  {
    outputFile + Units("_") + fileName + Units("_confidence.txt")
  }

  /** Different images of one run get different confidence reports: the
      image's name can be read back from the path. */
  lemma ConfidencePathsDistinct(outputFile: QString, f1: QString, f2: QString)
    requires f1 != f2
    ensures ConfidencePath(outputFile, f1) != ConfidencePath(outputFile, f2)
  {
    var p1, p2 := ConfidencePath(outputFile, f1), ConfidencePath(outputFile, f2);
    if |f1| == |f2| {
      assert p1[|outputFile| + 1..|outputFile| + 1 + |f1|] != p2[|outputFile| + 1..|outputFile| + 1 + |f2|];
    }
  }

  /** The entries saved for an image: the extractor's result. */
  function Entries(tools: ImageTools, classes: CharClasses): seq<CharacterConfidence> {
    ExtractConfidence(tools.table, tools.wordText, classes, tools.rand).entries
  }

  /** One confidence report per listed image, in list order. Images with
      different names never share a report, and a report has no lines
      exactly when the extractor found nothing for its image. */
  function SaveAll(outputFile: QString, files: seq<QString>, tools: QString -> ImageTools,
                   classes: CharClasses): (saved: seq<SavedConfidence>)
    ensures |saved| == |files|
    ensures forall j :: 0 <= j < |files| ==>
      && saved[j].path == ConfidencePath(outputFile, files[j])
      && saved[j].file == ConfidenceFileOf(Entries(tools(files[j]), classes))
      && (saved[j].file.lines == [] <==> Entries(tools(files[j]), classes) == [])
    ensures forall j1, j2 :: 0 <= j1 < |files| && 0 <= j2 < |files| && files[j1] != files[j2] ==>
      saved[j1].path != saved[j2].path
  {
    var saved := seq(|files|, j requires 0 <= j < |files| =>
      SavedConfidence(ConfidencePath(outputFile, files[j]), ConfidenceFileOf(Entries(tools(files[j]), classes))));
    forall j1, j2 | 0 <= j1 < |files| && 0 <= j2 < |files| && files[j1] != files[j2]
      ensures saved[j1].path != saved[j2].path
    {
      ConfidencePathsDistinct(outputFile, files[j1], files[j2]);
    }
    saved
  }

  /** `outputOpens` says whether the aggregate report can be created,
      `tools` what the tool runs yield for each listed image. */
  function ProcessFolder(folderPath: QString, outputFile: QString, language: QString, dir: Directory,
                         outputOpens: bool, tools: QString -> ImageTools, classes: CharClasses): (r: ExternalRun)
    ensures !dir.present ==> r.run == Aborted(FolderMissing)
    ensures dir.present && ListImages(dir) == [] ==> r.run == Aborted(NoImages)
    ensures dir.present && ListImages(dir) != [] && !outputOpens ==> r.run == Aborted(OutputNotOpened)
    ensures r.run.Completed? <==> dir.present && ListImages(dir) != [] && outputOpens
    ensures r.run.Aborted? ==> !r.ok && r.confidenceFiles == []
    ensures r.run.Completed? ==>
      && Describes(r.run.report, Header(folderPath, language, |ListImages(dir)|, None),
                   ListImages(dir), Recogniser(tools), NoTextMarker, classes.isSpace)
      && r.confidenceFiles == SaveAll(outputFile, ListImages(dir), tools, classes)
      && (r.ok <==> r.run.report.summary.succeeded > 0)
  {
    if !dir.present then ExternalRun(Aborted(FolderMissing), false, [])
    else
      var files := ListImages(dir);
      if files == [] then ExternalRun(Aborted(NoImages), false, [])
      else if !outputOpens then ExternalRun(Aborted(OutputNotOpened), false, [])
      else
        var report := WriteReport(Header(folderPath, language, |files|, None), files,
                                  Recogniser(tools), NoTextMarker, classes.isSpace);
        ExternalRun(Completed(report), report.summary.succeeded > 0, SaveAll(outputFile, files, tools, classes))
  }

  /** An image's confidence report is written whether or not its text was
      recognised, and it falls back to synthesised entries exactly when the
      table run gave none. */
  lemma ConfidenceSavedForEveryImage(folderPath: QString, outputFile: QString, language: QString,
                                     dir: Directory, tools: QString -> ImageTools, classes: CharClasses, j: nat)
    requires dir.present && j < |ListImages(dir)|
    ensures var r := ProcessFolder(folderPath, outputFile, language, dir, true, tools, classes);
      var t := tools(ListImages(dir)[j]);
      && r.confidenceFiles[j].file.lines != [] <==>
           (TableResult(t.table, classes.isSpace) != []
            || (t.wordText.Some? && Trim(t.wordText.value, classes.isSpace) != []))
  {
    var t := tools(ListImages(dir)[j]);
    var entries := Entries(t, classes);
    assert |ConfidenceFileOf(entries).lines| == |entries|;
  }
}

=== FILE: ocr_report.dfy ===
/** The aggregate report both variants of `processFolder` write, and the
    image list they build: a header, one section per image in list order,
    and a summary of successes and failures. */
module OcrReport {
  import opened Wrappers
  import opened QtString

  /** The name filters, in the order the image list is built from them. */
  const SupportedExtensions: seq<string> :=
    ["*.png", "*.jpg", "*.jpeg", "*.tiff", "*.tif", "*.bmp", "*.gif", "*.webp"]

  /** The input folder: whether it exists, and the files `QDir::entryList`
      lists for one name filter. */
  datatype Directory = Directory(present: bool, entryList: string -> seq<QString>)

  function Collect(patterns: seq<string>, entryList: string -> seq<QString>): seq<QString> {
    if patterns == [] then [] else entryList(patterns[0]) + Collect(patterns[1..], entryList)
  }

  /** The image list: the matches of each extension filter in turn, so all
      `.png` files come before all `.jpg` files, and so on. */
  function ListImages(dir: Directory): (files: seq<QString>)
    ensures files == dir.entryList("*.png") + dir.entryList("*.jpg") + dir.entryList("*.jpeg")
                   + dir.entryList("*.tiff") + dir.entryList("*.tif") + dir.entryList("*.bmp")
                   + dir.entryList("*.gif") + dir.entryList("*.webp")
  {
    var e := dir.entryList;
    assert Collect(SupportedExtensions[7..], e) == e("*.webp") + Collect([], e);
    Collect(SupportedExtensions, dir.entryList)
  }

  const NoTextMarker: string := "[OCR FAILED - No text detected]"
  const LowConfidenceMarker: string := "[OCR FAILED - Low confidence or no text detected]"

  /** Folder, language and image count; the minimum-confidence line is
      present only when the confidence gate is on. The time stamp is not
      modelled. */
  datatype Header = Header(folder: QString, language: QString, totalImages: nat, minConfidence: Option<int>)

  /** The body of an image's section: the trimmed text, or a failure marker. */
  datatype Body = Recognised(text: QString) | Failed(marker: string)

  /** A "File:" section. */
  datatype Section = Section(fileName: QString, body: Body)

  datatype Summary = Summary(succeeded: nat, failed: nat, total: nat)

  datatype Report = Report(header: Header, sections: seq<Section>, summary: Summary)

  /** Why a run stops before the report is opened (or when it cannot be). */
  datatype AbortReason = EngineInitFailed | FolderMissing | NoImages | OutputNotOpened

  /** A run either stops early with a reason or writes its report. */
  datatype FolderRun = Aborted(reason: AbortReason) | Completed(report: Report)

  /** The section of one image: it succeeds when its raw result is
      non-empty and then holds the trimmed result; otherwise it holds
      `marker`. */
  function SectionFor(fileName: QString, result: QString, marker: string, isSpace: CodeUnit -> bool): (s: Section)
    ensures s.fileName == fileName
    ensures s.body.Recognised? <==> result != []
    ensures s.body.Recognised? ==> s.body.text == Trim(result, isSpace)
    ensures s.body.Failed? ==> s.body.marker == marker
  {
    if result != [] then Section(fileName, Recognised(Trim(result, isSpace)))
    else Section(fileName, Failed(marker))
  }

  /** The sections of the listed images, one per image in list order. */
  function Sections(files: seq<QString>, recognise: QString -> QString, marker: string,
                    isSpace: CodeUnit -> bool): (r: seq<Section>)
    ensures |r| == |files|
    ensures forall j :: 0 <= j < |files| ==> r[j] == SectionFor(files[j], recognise(files[j]), marker, isSpace)
  {
    if files == [] then []
    else
      var rest := Sections(files[1..], recognise, marker, isSpace);
      var r := [SectionFor(files[0], recognise(files[0]), marker, isSpace)] + rest;
      assert forall j :: 1 <= j < |files| ==> r[j] == rest[j - 1] && files[j] == files[1..][j - 1];
      r
  }

  /** The positions of the sections that succeeded (`ok`) or failed (`!ok`). */
  function Positions(sections: seq<Section>, ok: bool): set<nat> {
    set j: nat | j < |sections| && sections[j].body.Recognised? == ok
  }

  /** Every position moved one place on. */
  function Shift(positions: set<nat>): set<nat> {
    set j | j in positions :: j + 1
  }

  /** Moving every position one place on keeps their number. */
  lemma {:induction false} ShiftKeepsSize(positions: set<nat>)
    ensures |Shift(positions)| == |positions|
    decreases |positions|
  {
    if positions != {} {
      var x :| x in positions;
      var others := positions - {x};
      ShiftKeepsSize(others);
      assert Shift(positions) == Shift(others) + {x + 1} by {
        forall j | j in Shift(positions) ensures j in Shift(others) + {x + 1} {
          var i :| i in positions && j == i + 1;
          if i != x { assert i in others; }
        }
      }
      assert x + 1 !in Shift(others);
    }
  }

  /** The positions among `sections` are the first one, if it qualifies,
      and those among the rest moved one place on. */
  lemma PositionsSplit(sections: seq<Section>, ok: bool)
    requires sections != []
    ensures Positions(sections, ok)
            == (if sections[0].body.Recognised? == ok then {0} else {}) + Shift(Positions(sections[1..], ok))
  {
    var rest := Positions(sections[1..], ok);
    var head: set<nat> := if sections[0].body.Recognised? == ok then {0} else {};
    forall j | j in Positions(sections, ok) ensures j in head + Shift(rest) {
      if j > 0 {
        assert sections[1..][j - 1] == sections[j];
        assert j - 1 in rest;
      }
    }
    forall j | j in Shift(rest) ensures j in Positions(sections, ok) {
      var i :| i in rest && j == i + 1;
      assert sections[1..][i] == sections[j];
    }
  }

  /** Counting positions: the first section's contribution plus the count
      among the rest. */
  lemma PositionsStep(sections: seq<Section>, ok: bool)
    requires sections != []
    ensures |Positions(sections, ok)|
            == (if sections[0].body.Recognised? == ok then 1 else 0) + |Positions(sections[1..], ok)|
  {
    var rest := Positions(sections[1..], ok);
    PositionsSplit(sections, ok);
    ShiftKeepsSize(rest);
    assert 0 !in Shift(rest);
  }

  /** The success and failure counters over the sections: one success per
      section that holds text and one failure per section that holds a
      marker. */
  function Tally(sections: seq<Section>): (s: Summary)
    ensures s.succeeded == |Positions(sections, true)| && s.failed == |Positions(sections, false)|
    ensures s.total == |sections| && s.succeeded + s.failed == s.total
    ensures s.succeeded > 0 <==> exists j :: 0 <= j < |sections| && sections[j].body.Recognised?
    ensures s.failed > 0 <==> exists j :: 0 <= j < |sections| && sections[j].body.Failed?
  {
    if sections == [] then Summary(0, 0, 0)
    else
      var rest := Tally(sections[1..]);
      PositionsStep(sections, true);
      PositionsStep(sections, false);
      assert forall j :: 1 <= j < |sections| ==> sections[j] == sections[1..][j - 1];
      if sections[0].body.Recognised? then Summary(rest.succeeded + 1, rest.failed, rest.total + 1)
      else Summary(rest.succeeded, rest.failed + 1, rest.total + 1)
  }

  /** The images of `files` whose raw result is non-empty (`ok`) or empty
      (`!ok`). */
  function Yielding(files: seq<QString>, recognise: QString -> QString, ok: bool): set<nat> {
    set j: nat | j < |files| && (recognise(files[j]) != []) == ok
  }

  /** What a written report says about a run over `files`: the given
      header, one section per image in list order as `SectionFor` describes
      it, a total equal to the image count, one success per image that
      yielded text and one failure per image that did not, and so a success
      exactly when some image yielded text. */
  predicate Describes(report: Report, header: Header, files: seq<QString>, recognise: QString -> QString,
                      marker: string, isSpace: CodeUnit -> bool) {
    && report.header == header
    && |report.sections| == |files|
    && (forall j :: 0 <= j < |files| ==>
          report.sections[j] == SectionFor(files[j], recognise(files[j]), marker, isSpace))
    && report.summary.total == |files|
    && report.summary.succeeded == |Yielding(files, recognise, true)|
    && report.summary.failed == |Yielding(files, recognise, false)|
    && report.summary.succeeded + report.summary.failed == |files|
    && (report.summary.succeeded > 0 <==> exists j :: 0 <= j < |files| && recognise(files[j]) != [])
  }

  /** The report of one run over `files`. */
  function WriteReport(header: Header, files: seq<QString>, recognise: QString -> QString,
                       marker: string, isSpace: CodeUnit -> bool): (r: Report)
    ensures Describes(r, header, files, recognise, marker, isSpace)
  {
    var sections := Sections(files, recognise, marker, isSpace);
    assert Positions(sections, true) == Yielding(files, recognise, true);
    assert Positions(sections, false) == Yielding(files, recognise, false);
    Report(header, sections, Tally(sections))
  }

  /** A result that is only white space still counts as a success; its
      section body is empty. */
  lemma BlankResultSucceeds(files: seq<QString>, recognise: QString -> QString, marker: string,
                            isSpace: CodeUnit -> bool, j: nat)
    requires j < |files| && recognise(files[j]) != []
    requires forall k :: 0 <= k < |recognise(files[j])| ==> isSpace(recognise(files[j])[k])
    ensures Sections(files, recognise, marker, isSpace)[j] == Section(files[j], Recognised([]))
  {
    TrimEmptyIffAllSpace(recognise(files[j]), isSpace);
  }

  /** When every image fails, every section is a failure and nothing succeeded. */
  lemma AllFailed(files: seq<QString>, recognise: QString -> QString, marker: string, isSpace: CodeUnit -> bool)
    requires forall j :: 0 <= j < |files| ==> recognise(files[j]) == []
    ensures WriteReport(Header([], [], |files|, None), files, recognise, marker, isSpace).summary
            == Summary(0, |files|, |files|)
  {
  }
}

=== FILE: qt_number.dfy ===
/** `QString::toInt` and its inverse `QString::number` for base 10. */
module QtNumber {
  import opened QtString
  import opened CppInt

  const Plus: CodeUnit := 0x2B
  const Minus: CodeUnit := 0x2D
  const Zero: CodeUnit := 0x30

  predicate IsDigit(u: CodeUnit) {
    Zero <= u <= Zero + 9
  }

  predicate AllDigits(s: QString) {
    forall k :: 0 <= k < |s| ==> IsDigit(s[k])
  }

  function DigitUnit(d: nat): (u: CodeUnit)
    requires d < 10
    ensures IsDigit(u)
  {
    Zero + d as CodeUnit
  }

  /** The value of a run of decimal digits, most significant first. */
  function DigitsValue(s: QString): nat
    requires AllDigits(s)
  {
    if s == [] then 0 else DigitsValue(s[..|s| - 1]) * 10 + (s[|s| - 1] - Zero) as nat
  }

  /** An optional `+` or `-` followed by at least one ASCII digit and nothing else. */
  predicate IsIntLiteral(t: QString) {
    var digits := if t != [] && (t[0] == Plus || t[0] == Minus) then t[1..] else t;
    digits != [] && AllDigits(digits)
  }

  function LiteralValue(t: QString): int
    requires IsIntLiteral(t)
  {
    if t[0] == Minus then -(DigitsValue(t[1..]) as int)
    else if t[0] == Plus then DigitsValue(t[1..])
    else DigitsValue(t)
  }

  /** `QString::toInt()`: white space around the number is ignored; text that
      is not a base-10 integer literal, or whose value does not fit a 32-bit
      `int`, converts to 0. */
  function ToInt(s: QString, isSpace: CodeUnit -> bool): (r: int)
    ensures InInt32(r)
  {
    var t := Trim(s, isSpace);
    if IsIntLiteral(t) && InInt32(LiteralValue(t)) then LiteralValue(t) else 0
  }

  /** The base-10 digits of `n`, without leading zeros. */
  function Decimal(n: nat): (r: QString)
    ensures |r| >= 1 && AllDigits(r)
  {
    if n < 10 then [DigitUnit(n)] else Decimal(n / 10) + [DigitUnit(n % 10)]
  }

  /** `QString::number(n)`: a minus sign for negative numbers, then the digits. */
  function IntText(n: int): QString {
    if n < 0 then [Minus] + Decimal(-n) else Decimal(n)
  }

  lemma {:induction false} DigitsOfDecimal(n: nat)
    ensures DigitsValue(Decimal(n)) == n
  {
    if n >= 10 {
      DigitsOfDecimal(n / 10);
      var d := Decimal(n);
      assert d[..|d| - 1] == Decimal(n / 10);
    }
  }

  /** Reading back the text of a 32-bit integer gives the integer. */
  lemma ToIntOfIntText(n: int, isSpace: CodeUnit -> bool)
    requires InInt32(n)
    requires VisibleAsciiIsNotSpace(isSpace)
    ensures ToInt(IntText(n), isSpace) == n
  {
    var t := IntText(n);
    var m: nat := if n < 0 then -n else n;
    var d := Decimal(m);
    DigitsOfDecimal(m);
    assert !isSpace(t[0]) && !isSpace(t[|t| - 1]);
    TrimKeepsTrimmed(t, isSpace);
    if n < 0 {
      assert t[1..] == d;
    }
    assert IsIntLiteral(t);
  }

  /** A decimal fraction is not an integer literal, so it converts to 0. */
  lemma FractionReadsAsZero(isSpace: CodeUnit -> bool)
    requires VisibleAsciiIsNotSpace(isSpace)
    ensures ToInt(Units("96.5"), isSpace) == 0
  {
    var t := Units("96.5");
    assert !isSpace(t[0]) && !isSpace(t[3]);
    TrimKeepsTrimmed(t, isSpace);
    assert !IsDigit(t[2]);
  }

  /** Text with no non-blank code unit converts to 0. */
  lemma BlankReadsAsZero(s: QString, isSpace: CodeUnit -> bool)
    requires forall k :: 0 <= k < |s| ==> isSpace(s[k])
    ensures ToInt(s, isSpace) == 0
  {
    TrimEmptyIffAllSpace(s, isSpace);
  }
}

=== FILE: qt_string.dfy ===
/** The slice of `QString` the source uses: text as UTF-16 code units (what
    `length()` counts and `at(i)` indexes), `trimmed()`, `split(QChar)`, and
    the line-by-line reading of `QTextStream::readLine`. */
module QtString {

  /** One UTF-16 code unit, the element type of a `QString`. */
  newtype CodeUnit = n: int | 0 <= n < 0x1_0000

  type QString = seq<CodeUnit>

  const Tab: CodeUnit := 0x09
  const LineFeed: CodeUnit := 0x0A
  const Space: CodeUnit := 0x20

  /** The code units of a literal written in the Basic Multilingual Plane. */
  function Units(s: string): (r: QString)
    requires forall i :: 0 <= i < |s| ==> (s[i] as int) < 0x1_0000
    ensures |r| == |s|
    ensures forall i :: 0 <= i < |s| ==> r[i] as int == s[i] as int
  {
    seq(|s|, i requires 0 <= i < |s| => s[i] as int as CodeUnit)
  }

  /** The `QChar` queries the source makes (`isSpace`, `isLetter`, `isDigit`,
      `isPunct`, `toLower`). Their Unicode tables are not part of this model,
      so they are supplied as uninterpreted functions. */
  datatype CharClasses = CharClasses(
    isSpace: CodeUnit -> bool,
    isLetter: CodeUnit -> bool,
    isDigit: CodeUnit -> bool,
    isPunct: CodeUnit -> bool,
    toLower: CodeUnit -> CodeUnit)

  /** What holds of `QChar::isSpace` for plain ASCII: no visible character
      (`!` through `~`) is white space. */
  predicate VisibleAsciiIsNotSpace(isSpace: CodeUnit -> bool) {
    forall u: CodeUnit :: 0x21 <= u <= 0x7E ==> !isSpace(u)
  }

  /** `s` without its leading white space. */
  function TrimStart(s: QString, isSpace: CodeUnit -> bool): (r: QString)
    ensures |r| <= |s| && r == s[|s| - |r|..]
    ensures forall k :: 0 <= k < |s| - |r| ==> isSpace(s[k])
    ensures r == [] || !isSpace(r[0])
  {
    if s != [] && isSpace(s[0]) then TrimStart(s[1..], isSpace) else s
  }

  /** `s` without its trailing white space. */
  function TrimEnd(s: QString, isSpace: CodeUnit -> bool): (r: QString)
    ensures |r| <= |s| && r == s[..|r|]
    ensures forall k :: |r| <= k < |s| ==> isSpace(s[k])
    ensures r == [] || !isSpace(r[|r| - 1])
  {
    if s != [] && isSpace(s[|s| - 1]) then TrimEnd(s[..|s| - 1], isSpace) else s
  }

  /** How many code units `Trim` cuts from the front of `s`. */
  function TrimOffset(s: QString, isSpace: CodeUnit -> bool): nat
  {
    |s| - |TrimStart(s, isSpace)|
  }

  /** `QString::trimmed`: `s` with white space removed from both ends. The
      result is a contiguous piece of `s` that neither starts nor ends with
      white space, and everything cut away is white space. */
  function Trim(s: QString, isSpace: CodeUnit -> bool): (r: QString)
    ensures r == [] || (!isSpace(r[0]) && !isSpace(r[|r| - 1]))
    ensures var a := TrimOffset(s, isSpace);
      && a + |r| <= |s| && r == s[a..a + |r|]
      && (forall k :: 0 <= k < a ==> isSpace(s[k]))
      && (forall k :: a + |r| <= k < |s| ==> isSpace(s[k]))
  {
    var t := TrimStart(s, isSpace);
    var r := TrimEnd(t, isSpace);
    var a := |s| - |t|;
    assert r == s[a..a + |r|];
    r
  }

  /** Text that neither starts nor ends with white space is left as it is. */
  lemma TrimKeepsTrimmed(s: QString, isSpace: CodeUnit -> bool)
    requires s == [] || (!isSpace(s[0]) && !isSpace(s[|s| - 1]))
    ensures Trim(s, isSpace) == s
  {
    var r := Trim(s, isSpace);
    var a := TrimOffset(s, isSpace);
    if s != [] {
      assert !(0 < a) by {
        assert !isSpace(s[0]);
      }
      assert !(|r| < |s|) by {
        assert !isSpace(s[|s| - 1]);
      }
    }
  }

  /** Trimming twice is trimming once. */
  lemma TrimIdempotent(s: QString, isSpace: CodeUnit -> bool)
    ensures Trim(Trim(s, isSpace), isSpace) == Trim(s, isSpace)
  {
    TrimKeepsTrimmed(Trim(s, isSpace), isSpace);
  }

  /** Trimming leaves nothing exactly when the text is all white space. */
  lemma TrimEmptyIffAllSpace(s: QString, isSpace: CodeUnit -> bool)
    ensures Trim(s, isSpace) == [] <==> forall k :: 0 <= k < |s| ==> isSpace(s[k])
  {
    var r := Trim(s, isSpace);
    var a := TrimOffset(s, isSpace);
    if r != [] {
      assert s[a] == r[0];
    } else {
      assert forall k :: 0 <= k < |s| ==> isSpace(s[k]) by {
        forall k | 0 <= k < |s| ensures isSpace(s[k]) {
          if k >= a { assert a + |r| <= k; }
        }
      }
    }
  }

  /** `QString::split(sep)` with empty parts kept: the pieces of `s` between
      the occurrences of `sep`. There is always at least one piece. */
  function Split(s: QString, sep: CodeUnit): (parts: seq<QString>)
    ensures |parts| >= 1
    ensures forall i, k :: 0 <= i < |parts| && 0 <= k < |parts[i]| ==> parts[i][k] != sep
  {
    if s == [] then [[]]
    else
      var rest := Split(s[1..], sep);
      if s[0] == sep then [[]] + rest
      else
        assert forall k :: 1 <= k < |[s[0]] + rest[0]| ==> ([s[0]] + rest[0])[k] == rest[0][k - 1];
        [[s[0]] + rest[0]] + rest[1..]
  }

  /** The inverse of `Split`: the parts with `sep` between each two. */
  function Join(parts: seq<QString>, sep: CodeUnit): QString
    requires |parts| >= 1
  {
    if |parts| == 1 then parts[0] else parts[0] + [sep] + Join(parts[1..], sep)
  }

  /** Splitting and joining again gives back the text. */
  lemma {:induction false} JoinSplit(s: QString, sep: CodeUnit)
    ensures Join(Split(s, sep), sep) == s
  {
    if s != [] {
      var rest := Split(s[1..], sep);
      JoinSplit(s[1..], sep);
      if s[0] == sep {
        assert Split(s, sep) == [[]] + rest;
        assert ([[]] + rest)[1..] == rest;
      } else {
        var parts := [[s[0]] + rest[0]] + rest[1..];
        assert Split(s, sep) == parts;
        if |rest| == 1 {
          assert Join(parts, sep) == [s[0]] + rest[0];
        } else {
          assert parts[1..] == rest[1..];
          assert Join(rest, sep) == rest[0] + [sep] + Join(rest[1..], sep);
        }
      }
    }
  }

  /** Joining parts that do not contain `sep` and splitting again gives back
      the parts. */
  lemma {:induction false} SplitJoin(parts: seq<QString>, sep: CodeUnit)
    requires |parts| >= 1
    requires forall i, k :: 0 <= i < |parts| && 0 <= k < |parts[i]| ==> parts[i][k] != sep
    ensures Split(Join(parts, sep), sep) == parts
  {
    if |parts| == 1 {
      SplitFree(parts[0], sep);
    } else {
      SplitJoin(parts[1..], sep);
      SplitAfterFirst(parts[0], Join(parts[1..], sep), sep);
    }
  }

  /** Text without `sep` is a single piece. */
  lemma {:induction false} SplitFree(s: QString, sep: CodeUnit)
    requires forall k :: 0 <= k < |s| ==> s[k] != sep
    ensures Split(s, sep) == [s]
  {
    if s != [] {
      SplitFree(s[1..], sep);
      assert [s[0]] + s[1..] == s;
    }
  }

  /** The first piece ends at the first `sep`; the rest is split on its own. */
  lemma {:induction false} SplitAfterFirst(h: QString, rest: QString, sep: CodeUnit)
    requires forall k :: 0 <= k < |h| ==> h[k] != sep
    ensures Split(h + [sep] + rest, sep) == [h] + Split(rest, sep)
  {
    if h == [] {
      assert h + [sep] + rest == [sep] + rest;
      assert ([sep] + rest)[1..] == rest;
    } else {
      var s := h + [sep] + rest;
      assert s[1..] == h[1..] + [sep] + rest;
      SplitAfterFirst(h[1..], rest, sep);
      assert [h[0]] + h[1..] == h;
    }
  }

  /** The lines `QTextStream::readLine` returns, one per call, until the
      stream is at its end: the text between line feeds, where a final line
      feed does not start another (empty) line and empty text has no line. */
  function ReadLines(content: QString): (lines: seq<QString>)
    ensures forall i, k :: 0 <= i < |lines| && 0 <= k < |lines[i]| ==> lines[i][k] != LineFeed
  {
    if content == [] then []
    else
      var parts := Split(content, LineFeed);
      if content[|content| - 1] == LineFeed then parts[..|parts| - 1] else parts
  }

  /** Reading a line consumes it and its line feed; the rest reads on its own. */
  lemma ReadLinesFirst(h: QString, rest: QString)
    requires forall k :: 0 <= k < |h| ==> h[k] != LineFeed
    ensures ReadLines(h + [LineFeed] + rest) == [h] + ReadLines(rest)
  {
    var content := h + [LineFeed] + rest;
    SplitAfterFirst(h, rest, LineFeed);
    var parts := Split(content, LineFeed);
    assert parts == [h] + Split(rest, LineFeed);
    if rest == [] {
      assert Split(rest, LineFeed) == [[]];
    } else {
      assert content[|content| - 1] == rest[|rest| - 1];
      if rest[|rest| - 1] == LineFeed {
        assert parts[..|parts| - 1] == [h] + Split(rest, LineFeed)[..|Split(rest, LineFeed)| - 1];
      }
    }
  }

  /** Text without a line feed is read as one line (or none when empty). */
  lemma ReadLinesSingle(s: QString)
    requires forall k :: 0 <= k < |s| ==> s[k] != LineFeed
    ensures ReadLines(s) == (if s == [] then [] else [s])
  {
    if s != [] {
      SplitFree(s, LineFeed);
    }
  }
}

=== FILE: tsv_confidence.dfy ===
/** The table-based confidence extractor of the external-process variant:
    the tab-separated table the OCR tool writes is read line by line, the
    header line is skipped, and word rows and character rows become
    per-character entries. */
module TsvConfidence {
  import opened Wrappers
  import opened CppInt
  import opened QtString
  import opened QtNumber
  import opened ConfidenceEntry

  /** Columns a row needs before it is looked at. */
  const ColumnCount: nat := 12
  /** The level the source treats as a word: split into characters. */
  const WordLevel: int := 4
  /** The level the source treats as a character: copied as it is. */
  const CharacterLevel: int := 5

  /** One table row: level, page / block / paragraph / line / word numbers,
      box (left, top, width, height), confidence and text. */
  datatype TsvRow = TsvRow(
    level: int,
    pageNum: int, blockNum: int, parNum: int, lineNum: int, wordNum: int,
    left: int, top: int, width: int, height: int,
    conf: int,
    text: QString)

  predicate NumbersInInt32(row: TsvRow) {
    && InInt32(row.level) && InInt32(row.pageNum) && InInt32(row.blockNum)
    && InInt32(row.parNum) && InInt32(row.lineNum) && InInt32(row.wordNum)
    && InInt32(row.left) && InInt32(row.top) && InInt32(row.width)
    && InInt32(row.height) && InInt32(row.conf)
  }

  /** A row whose text can be written into a table line and read back. */
  predicate Writable(row: TsvRow) {
    && NumbersInInt32(row)
    && forall k :: 0 <= k < |row.text| ==> row.text[k] != Tab && row.text[k] != LineFeed
  }

  /** The row of a line cut at its tabs: columns 0 to 10 read with `toInt`,
      column 11 taken as the text, columns after 11 ignored. A line with fewer
      than twelve columns is no row. */
  function DecodeRow(fields: seq<QString>, isSpace: CodeUnit -> bool): (r: Option<TsvRow>)
    ensures r.None? <==> |fields| < ColumnCount
    ensures r.Some? ==> r.value.text == fields[11] && NumbersInInt32(r.value)
  {
    if |fields| < ColumnCount then None
    else
      Some(TsvRow(
        ToInt(fields[0], isSpace),
        ToInt(fields[1], isSpace), ToInt(fields[2], isSpace), ToInt(fields[3], isSpace),
        ToInt(fields[4], isSpace), ToInt(fields[5], isSpace),
        ToInt(fields[6], isSpace), ToInt(fields[7], isSpace),
        ToInt(fields[8], isSpace), ToInt(fields[9], isSpace),
        ToInt(fields[10], isSpace),
        fields[11]))
  }

  /** The twelve cells of a row as the OCR tool writes them. */
  function RowFields(row: TsvRow): (fields: seq<QString>)
    ensures |fields| == ColumnCount
    ensures fields[0] == IntText(row.level)
    ensures fields[1] == IntText(row.pageNum) && fields[2] == IntText(row.blockNum)
    ensures fields[3] == IntText(row.parNum) && fields[4] == IntText(row.lineNum)
    ensures fields[5] == IntText(row.wordNum)
    ensures fields[6] == IntText(row.left) && fields[7] == IntText(row.top)
    ensures fields[8] == IntText(row.width) && fields[9] == IntText(row.height)
    ensures fields[10] == IntText(row.conf) && fields[11] == row.text
  {
    [IntText(row.level),
     IntText(row.pageNum), IntText(row.blockNum), IntText(row.parNum),
     IntText(row.lineNum), IntText(row.wordNum),
     IntText(row.left), IntText(row.top), IntText(row.width), IntText(row.height),
     IntText(row.conf),
     row.text]
  }

  /** A row written as one table line (without its line feed). */
  function EncodeRow(row: TsvRow): QString {
    Join(RowFields(row), Tab)
  }

  lemma IntTextHasNoControl(n: int)
    ensures forall k :: 0 <= k < |IntText(n)| ==> IntText(n)[k] != Tab && IntText(n)[k] != LineFeed
  {
    if n < 0 {
      var d := Decimal(-n);
      assert forall k :: 1 <= k < |IntText(n)| ==> IntText(n)[k] == d[k - 1];
    }
  }

  lemma {:induction false} JoinHasNo(parts: seq<QString>, sep: CodeUnit, u: CodeUnit)
    requires |parts| >= 1 && u != sep
    requires forall i, k :: 0 <= i < |parts| && 0 <= k < |parts[i]| ==> parts[i][k] != u
    ensures forall k :: 0 <= k < |Join(parts, sep)| ==> Join(parts, sep)[k] != u
  {
    if |parts| > 1 {
      JoinHasNo(parts[1..], sep, u);
    }
  }

  /** A written row contains no line feed, so it stays one line. */
  lemma EncodeRowIsOneLine(row: TsvRow)
    requires Writable(row)
    ensures forall k :: 0 <= k < |EncodeRow(row)| ==> EncodeRow(row)[k] != LineFeed
  {
    var fs := RowFields(row);
    forall i | 0 <= i < 11 ensures forall k :: 0 <= k < |fs[i]| ==> fs[i][k] != LineFeed {
      IntTextHasNoControl([row.level, row.pageNum, row.blockNum, row.parNum, row.lineNum,
        row.wordNum, row.left, row.top, row.width, row.height, row.conf][i]);
    }
    JoinHasNo(fs, Tab, LineFeed);
  }

  /** Writing a row as a table line and reading the line back gives the row. */
  lemma DecodeEncodeRow(row: TsvRow, isSpace: CodeUnit -> bool)
    requires Writable(row)
    requires VisibleAsciiIsNotSpace(isSpace)
    ensures DecodeRow(Split(EncodeRow(row), Tab), isSpace) == Some(row)
  {
    var fs := RowFields(row);
    RowFieldsTabFree(row);
    SplitJoin(fs, Tab);
    FieldsReadBack(row, isSpace);
  }

  /** No cell of a writable row contains a tab. */
  lemma RowFieldsTabFree(row: TsvRow)
    requires Writable(row)
    ensures forall i, k :: 0 <= i < |RowFields(row)| && 0 <= k < |RowFields(row)[i]| ==> RowFields(row)[i][k] != Tab
  {
    var fs := RowFields(row);
    var nums := [row.level, row.pageNum, row.blockNum, row.parNum, row.lineNum,
      row.wordNum, row.left, row.top, row.width, row.height, row.conf];
    forall i | 0 <= i < 11 ensures forall k :: 0 <= k < |fs[i]| ==> fs[i][k] != Tab {
      IntTextHasNoControl(nums[i]);
    }
  }

  /** Each numeric cell of a writable row reads back as its number. */
  lemma FieldsReadBack(row: TsvRow, isSpace: CodeUnit -> bool)
    requires NumbersInInt32(row)
    requires VisibleAsciiIsNotSpace(isSpace)
    ensures var fs := RowFields(row);
      && ToInt(fs[0], isSpace) == row.level
      && ToInt(fs[1], isSpace) == row.pageNum && ToInt(fs[2], isSpace) == row.blockNum
      && ToInt(fs[3], isSpace) == row.parNum && ToInt(fs[4], isSpace) == row.lineNum
      && ToInt(fs[5], isSpace) == row.wordNum
      && ToInt(fs[6], isSpace) == row.left && ToInt(fs[7], isSpace) == row.top
      && ToInt(fs[8], isSpace) == row.width && ToInt(fs[9], isSpace) == row.height
      && ToInt(fs[10], isSpace) == row.conf
  {
    ToIntOfIntText(row.level, isSpace);
    ToIntOfIntText(row.pageNum, isSpace);
    ToIntOfIntText(row.blockNum, isSpace);
    ToIntOfIntText(row.parNum, isSpace);
    ToIntOfIntText(row.lineNum, isSpace);
    ToIntOfIntText(row.wordNum, isSpace);
    ToIntOfIntText(row.left, isSpace);
    ToIntOfIntText(row.top, isSpace);
    ToIntOfIntText(row.width, isSpace);
    ToIntOfIntText(row.height, isSpace);
    ToIntOfIntText(row.conf, isSpace);
  }

  /** Entry `i` of a word row of `n` characters: the `i`-th code unit with
      the row's confidence, at `left + i * width / n`, `width / n` wide, both
      divisions truncating as in C++. */
  function WordCharacter(row: TsvRow, i: nat): CharacterConfidence
    requires i < |row.text|
  {
    var n := |row.text|;
    CharacterConfidence(
      [row.text[i]], row.conf,
      row.left + Quot(i * row.width, n), row.top, Quot(row.width, n), row.height,
      row.pageNum, row.blockNum, row.parNum, row.lineNum, row.wordNum)
  }

  /** The entries for characters `i` onward of a word row, in text order. */
  function WordEntriesFrom(row: TsvRow, i: nat): (r: seq<CharacterConfidence>)
    requires i <= |row.text|
    ensures |r| == |row.text| - i
    ensures forall j :: 0 <= j < |r| ==> r[j] == WordCharacter(row, i + j)
    decreases |row.text| - i
  {
    if i == |row.text| then [] else [WordCharacter(row, i)] + WordEntriesFrom(row, i + 1)
  }

  /** The entries one row contributes. A word row with text and a
      non-negative confidence gives one entry per code unit of its text; a
      character row with text gives one entry copied verbatim, whatever its
      confidence; every other row gives none. */
  function RowEntries(row: TsvRow): (r: seq<CharacterConfidence>)
    ensures row.text == [] ==> r == []
    ensures row.level != WordLevel && row.level != CharacterLevel ==> r == []
    ensures row.level == WordLevel && row.conf < 0 ==> r == []
    ensures row.level == WordLevel && row.conf >= 0 ==>
      && |r| == |row.text|
      && forall i :: 0 <= i < |r| ==>
        && r[i].character == [row.text[i]]
        && r[i].confidence == row.conf
        && r[i].x == row.left + Quot(i * row.width, |row.text|)
        && r[i].width == Quot(row.width, |row.text|)
        && r[i].y == row.top && r[i].height == row.height
        && r[i].pageNum == row.pageNum && r[i].blockNum == row.blockNum
        && r[i].parNum == row.parNum && r[i].lineNum == row.lineNum
        && r[i].wordNum == row.wordNum
    ensures row.level == CharacterLevel && row.text != [] ==>
      r == [CharacterConfidence(row.text, row.conf,
                                row.left, row.top, row.width, row.height,
                                row.pageNum, row.blockNum, row.parNum, row.lineNum, row.wordNum)]
  {
    if row.level == WordLevel && row.text != [] && row.conf >= 0 then
      WordEntriesFrom(row, 0)
    else if row.level == CharacterLevel && row.text != [] then
      [CharacterConfidence(row.text, row.conf,
                           row.left, row.top, row.width, row.height,
                           row.pageNum, row.blockNum, row.parNum, row.lineNum, row.wordNum)]
    else
      []
  }

  function SumWidths(entries: seq<CharacterConfidence>): int {
    if entries == [] then 0 else entries[0].width + SumWidths(entries[1..])
  }

  lemma {:induction false} SumOfEqualWidths(entries: seq<CharacterConfidence>, w: int)
    requires forall i :: 0 <= i < |entries| ==> entries[i].width == w
    ensures SumWidths(entries) == |entries| * w
  {
    if entries != [] {
      SumOfEqualWidths(entries[1..], w);
    }
  }

  /** How a word row of non-negative width `W` and `n` characters is shared
      out: the first box starts at the word's left edge, the boxes go left to
      right without overlapping, the last one ends inside the word, and the
      widths add up to `W` less a remainder smaller than `n`. */
  lemma WordBoxes(row: TsvRow)
    requires row.level == WordLevel && row.conf >= 0 && row.text != []
    requires row.width >= 0
    ensures var r := RowEntries(row); var n := |row.text|;
      && r[0].x == row.left
      && (forall i, j :: 0 <= i <= j < n ==> r[i].x <= r[j].x)
      && (forall i :: 0 <= i < n - 1 ==> r[i].x + r[i].width <= r[i + 1].x)
      && r[n - 1].x + r[n - 1].width <= row.left + row.width
      && SumWidths(r) <= row.width < SumWidths(r) + n
  {
    WordBoxAt(row, 0);
    WordStartsGrow(row);
    WordBoxesApart(row);
    WordLastBox(row);
    WordWidths(row);
  }

  /** Later characters of a word never start further left. */
  lemma WordStartsGrow(row: TsvRow)
    requires row.level == WordLevel && row.conf >= 0 && row.text != []
    requires row.width >= 0
    ensures var r := RowEntries(row);
      forall i, j :: 0 <= i <= j < |row.text| ==> r[i].x <= r[j].x
  {
    var r := RowEntries(row);
    var n := |row.text|;
    forall i, j | 0 <= i <= j < n ensures r[i].x <= r[j].x {
      WordBoxAt(row, i);
      WordBoxAt(row, j);
      ShareStartsGrow(row.width, n, i, j);
    }
  }

  /** Each character's box ends before the next one starts. */
  lemma WordBoxesApart(row: TsvRow)
    requires row.level == WordLevel && row.conf >= 0 && row.text != []
    requires row.width >= 0
    ensures var r := RowEntries(row);
      forall i :: 0 <= i < |row.text| - 1 ==> r[i].x + r[i].width <= r[i + 1].x
  {
    var r := RowEntries(row);
    var n := |row.text|;
    forall i | 0 <= i < n - 1 ensures r[i].x + r[i].width <= r[i + 1].x {
      WordBoxBeforeNext(row, i);
    }
  }

  lemma WordBoxBeforeNext(row: TsvRow, i: nat)
    requires row.level == WordLevel && row.conf >= 0 && i + 1 < |row.text|
    requires row.width >= 0
    ensures RowEntries(row)[i].x + RowEntries(row)[i].width <= RowEntries(row)[i + 1].x
  {
    WordBoxAt(row, i);
    WordBoxAt(row, i + 1);
    ShareGap(row.width, |row.text|, i);
  }

  /** The last character's box ends inside the word. */
  lemma WordLastBox(row: TsvRow)
    requires row.level == WordLevel && row.conf >= 0 && row.text != []
    requires row.width >= 0
    ensures var r := RowEntries(row); var n := |row.text|;
      r[n - 1].x + r[n - 1].width <= row.left + row.width
  {
    var n := |row.text|;
    var w := row.width;
    WordBoxAt(row, n - 1);
    ShareGap(w, n, n - 1);
    assert (n - 1 + 1) * w == n * w;
    MulDivCancel(n, w);
  }

  /** The character widths add up to the word's width less a remainder
      smaller than the number of characters. */
  lemma WordWidths(row: TsvRow)
    requires row.level == WordLevel && row.conf >= 0 && row.text != []
    requires row.width >= 0
    ensures var r := RowEntries(row);
      SumWidths(r) <= row.width < SumWidths(r) + |row.text|
  {
    var r := RowEntries(row);
    var n := |row.text|;
    var w := row.width;
    forall i | 0 <= i < n ensures r[i].width == w / n {
      WordBoxAt(row, i);
    }
    SumOfEqualWidths(r, w / n);
    FloorShare(w, n);
  }

  /** `n` equal floor shares of `w` fall short of `w` by less than `n`. */
  lemma FloorShare(w: int, n: int)
    requires n > 0
    ensures n * (w / n) <= w < n * (w / n) + n
  {
    assert w == n * (w / n) + w % n;
  }

  /** Entry `i` of a word of non-negative width, with the truncating
      divisions read as floor divisions. */
  lemma WordBoxAt(row: TsvRow, i: nat)
    requires row.level == WordLevel && row.conf >= 0 && i < |row.text|
    requires row.width >= 0
    ensures RowEntries(row)[i].x == row.left + (i * row.width) / |row.text|
    ensures RowEntries(row)[i].width == row.width / |row.text|
  {
    MulMonotone(0, i, row.width);
    QuotOfNonNegative(i * row.width, |row.text|);
    QuotOfNonNegative(row.width, |row.text|);
  }

  /** Later characters of a word never start further left. */
  lemma ShareStartsGrow(w: int, n: int, i: int, j: int)
    requires w >= 0 && n > 0 && i <= j
    ensures (i * w) / n <= (j * w) / n
  {
    MulMonotone(i, j, w);
    DivMonotone(i * w, j * w, n);
  }

  /** A character's box ends before the next one starts. */
  lemma ShareGap(w: int, n: int, i: int)
    requires n > 0
    ensures (i * w) / n + w / n <= ((i + 1) * w) / n
  {
    DivAddLower(i * w, w, n);
    assert i * w + w == (i + 1) * w;
  }

  /** The entries of one table line. */
  function LineEntries(line: QString, isSpace: CodeUnit -> bool): seq<CharacterConfidence> {
    match DecodeRow(Split(line, Tab), isSpace)
    case None => []
    case Some(row) => RowEntries(row)
  }

  /** The entries of the table lines after the header, in line order. */
  function ParseRows(lines: seq<QString>, isSpace: CodeUnit -> bool): seq<CharacterConfidence> {
    if lines == [] then [] else LineEntries(lines[0], isSpace) + ParseRows(lines[1..], isSpace)
  }

  /** The parts, one after the other. */
  function Flatten<T>(parts: seq<seq<T>>): seq<T> {
    if parts == [] then [] else parts[0] + Flatten(parts[1..])
  }

  /** `e` is an element of one of the parts. */
  ghost predicate InSomePart<T>(e: T, parts: seq<seq<T>>) {
    exists i :: 0 <= i < |parts| && e in parts[i]
  }

  /** An element of a later part is an element of some part. */
  lemma InLaterPart<T>(e: T, parts: seq<seq<T>>)
    requires parts != [] && InSomePart(e, parts[1..])
    ensures InSomePart(e, parts)
  {
    var i :| 0 <= i < |parts[1..]| && e in parts[1..][i];
    assert parts[1..][i] == parts[i + 1];
  }

  /** Every element of the flattened parts comes from one of the parts. */
  lemma {:induction false} FlattenOrigin<T>(parts: seq<seq<T>>)
    ensures forall j :: 0 <= j < |Flatten(parts)| ==> InSomePart(Flatten(parts)[j], parts)
  {
    if parts != [] {
      var r, rest := Flatten(parts), Flatten(parts[1..]);
      FlattenOrigin(parts[1..]);
      forall j | 0 <= j < |r| ensures InSomePart(r[j], parts) {
        if j < |parts[0]| {
          assert r[j] in parts[0];
        } else {
          assert r[j] == rest[j - |parts[0]|];
          assert InSomePart(rest[j - |parts[0]|], parts[1..]);
          InLaterPart(r[j], parts);
        }
      }
    }
  }

  /** Empty parts flatten to nothing. */
  lemma {:induction false} FlattenOfEmptyParts<T>(parts: seq<seq<T>>)
    ensures (forall i :: 0 <= i < |parts| ==> parts[i] == []) ==> Flatten(parts) == []
  {
    if parts != [] && forall i :: 0 <= i < |parts| ==> parts[i] == [] {
      assert forall i :: 0 <= i < |parts[1..]| ==> parts[1..][i] == parts[i + 1];
      FlattenOfEmptyParts(parts[1..]);
    }
  }

  /** The entries of each line, line by line. */
  function EntriesPerLine(lines: seq<QString>, isSpace: CodeUnit -> bool): (parts: seq<seq<CharacterConfidence>>)
    ensures |parts| == |lines| && forall i :: 0 <= i < |lines| ==> parts[i] == LineEntries(lines[i], isSpace)
  {
    seq(|lines|, i requires 0 <= i < |lines| => LineEntries(lines[i], isSpace))
  }

  /** Parsing the lines is concatenating the entries of each line, in line
      order. */
  lemma {:induction false} ParseRowsFlatten(lines: seq<QString>, isSpace: CodeUnit -> bool)
    ensures ParseRows(lines, isSpace) == Flatten(EntriesPerLine(lines, isSpace))
  {
    if lines != [] {
      ParseRowsFlatten(lines[1..], isSpace);
      assert EntriesPerLine(lines, isSpace)[1..] == EntriesPerLine(lines[1..], isSpace);
    }
  }

  /** The table parse of `processImageWithTSVConfidence`: the first line is
      read and discarded as the header, then every further line is parsed. */
  function ParseTsv(content: QString, isSpace: CodeUnit -> bool): (r: seq<CharacterConfidence>)
    ensures |ReadLines(content)| <= 1 ==> r == []
    ensures |ReadLines(content)| >= 1 ==> r == Flatten(EntriesPerLine(ReadLines(content)[1..], isSpace))
    ensures forall j :: 0 <= j < |r| ==> InSomePart(r[j], EntriesPerLine(ReadLines(content), isSpace)[1..])
  {
    var lines := ReadLines(content);
    if lines == [] then []
    else
      var parts := EntriesPerLine(lines[1..], isSpace);
      ParseRowsFlatten(lines[1..], isSpace);
      FlattenOrigin(parts);
      assert parts == EntriesPerLine(lines, isSpace)[1..];
      FlattenOfEmptyParts(parts);
      ParseRows(lines[1..], isSpace)
  }

  /** Parsing is line by line: the entries of two runs of lines are the
      entries of the first followed by those of the second. */
  lemma {:induction false} ParseRowsAppend(a: seq<QString>, b: seq<QString>, isSpace: CodeUnit -> bool)
    ensures ParseRows(a + b, isSpace) == ParseRows(a, isSpace) + ParseRows(b, isSpace)
  {
    if a == [] {
      assert a + b == b;
    } else {
      assert (a + b)[0] == a[0];
      assert (a + b)[1..] == a[1..] + b;
      ParseRowsAppend(a[1..], b, isSpace);
    }
  }

  /** A line with fewer than twelve tab-separated columns contributes nothing. */
  lemma ShortLineIgnored(line: QString, isSpace: CodeUnit -> bool)
    requires |Split(line, Tab)| < ColumnCount
    ensures LineEntries(line, isSpace) == []
  {
  }

  /** The first line never contributes entries, whatever it holds: the
      entries are those of the lines after it. */
  lemma ParseTsvSkipsHeader(header: QString, body: QString, isSpace: CodeUnit -> bool)
    requires forall k :: 0 <= k < |header| ==> header[k] != LineFeed
    ensures ParseTsv(header + [LineFeed] + body, isSpace) == ParseRows(ReadLines(body), isSpace)
  {
    ReadLinesFirst(header, body);
  }

  /** A table that is only a header line has no entries. */
  lemma HeaderOnlyIsEmpty(content: QString, isSpace: CodeUnit -> bool)
    requires forall k :: 0 <= k < |content| ==> content[k] != LineFeed
    ensures ParseTsv(content, isSpace) == []
  {
    ReadLinesSingle(content);
  }

  /** Rows written one per line, each followed by a line feed. */
  function EncodeLines(rows: seq<TsvRow>): QString {
    if rows == [] then [] else EncodeRow(rows[0]) + [LineFeed] + EncodeLines(rows[1..])
  }

  /** The entries of a run of rows: each row's entries, in row order. */
  function TableEntries(rows: seq<TsvRow>): seq<CharacterConfidence> {
    if rows == [] then [] else RowEntries(rows[0]) + TableEntries(rows[1..])
  }

  /** A table written as a header line and rows parses to the rows' entries
      in row order. */
  lemma {:induction false} ParseWrittenTable(header: QString, rows: seq<TsvRow>, isSpace: CodeUnit -> bool)
    requires forall k :: 0 <= k < |header| ==> header[k] != LineFeed
    requires forall i :: 0 <= i < |rows| ==> Writable(rows[i])
    requires VisibleAsciiIsNotSpace(isSpace)
    ensures ParseTsv(header + [LineFeed] + EncodeLines(rows), isSpace) == TableEntries(rows)
  {
    ParseTsvSkipsHeader(header, EncodeLines(rows), isSpace);
    ParseWrittenRows(rows, isSpace);
  }

  lemma {:induction false} ParseWrittenRows(rows: seq<TsvRow>, isSpace: CodeUnit -> bool)
    requires forall i :: 0 <= i < |rows| ==> Writable(rows[i])
    requires VisibleAsciiIsNotSpace(isSpace)
    ensures ParseRows(ReadLines(EncodeLines(rows)), isSpace) == TableEntries(rows)
  {
    if rows != [] {
      ParseWrittenRow(rows[0], EncodeLines(rows[1..]), isSpace);
      ParseWrittenRows(rows[1..], isSpace);
    }
  }

  /** A written row followed by more lines parses to the row's entries
      followed by the entries of those lines. */
  lemma ParseWrittenRow(row: TsvRow, rest: QString, isSpace: CodeUnit -> bool)
    requires Writable(row)
    requires VisibleAsciiIsNotSpace(isSpace)
    ensures ParseRows(ReadLines(EncodeRow(row) + [LineFeed] + rest), isSpace)
            == RowEntries(row) + ParseRows(ReadLines(rest), isSpace)
  {
    var line := EncodeRow(row);
    EncodeRowIsOneLine(row);
    ReadLinesFirst(line, rest);
    var lines := ReadLines(line + [LineFeed] + rest);
    assert lines[1..] == ReadLines(rest);
    DecodeEncodeRow(row, isSpace);
    assert LineEntries(line, isSpace) == RowEntries(row);
  }
}

=== FILE: wrappers.dfy ===
/** The optional value used wherever the source returns an empty or null result
    instead of a value. */
module Wrappers {

  datatype Option<+T> = None | Some(value: T) {

    /** The value, or `default` when there is none. */
    function GetOr(default: T): T {
      match this
      case Some(v) => v
      case None => default
    }
  }
}
